=== FILE: README.md ===
# k-batch in Dafny

A model of the batching core of k-batch (`k-batch.js`). The library groups sentences into
batches of similar length, using one-dimensional k-means over sentence lengths. The model
covers these parts:

- **Options.** Options are resolved with JavaScript `||` defaults: 5 batches at most, 4
  sentences per batch, 10 sentences required, 100 iterations.
- **Short-circuit.** Fewer sentences than required come back as one batch.
- **Cluster count.** The number of clusters is
  `min(maxBatches, max(1, floor(n / minSentencesPerBatch)))`.
- **k-means.** Initial centroids are seeded from evenly spaced positions in length order.
  Each sentence is assigned to the first nearest centroid. Centroids are recomputed as means.
  The loop stops after `maxIterations` passes or when the centroids stop changing.
- **Sorting.** Each batch is sorted longest-first.
- **Repair.** The smallest batch is merged into the next-smallest until every batch reaches
  the minimum or only one batch is left.
- **Analysis.** The integer part of `analyzeKBatches`: the batch count, and for each batch
  its number, sentence count, longest sentence and shortest sentence.

Modules follow the program's structure:

- `Config`: options, defaults, the floor division and the cluster count.
- `Clustering`: distance, assignment, centroids, seeding and the k-means loop.
- `Repair`: `enforceBatchSizeConstraints`.
- `Batching`: `kBatchSentences`.
- `Analysis`: `analyzeKBatches`.
- `Pipeline`: how batching and analysis compose.
- `Text`: JavaScript string length.
- `Seqs`, `Sorting` and `Wrappers`: generic helpers.

## Modelling decisions

- **String length.** A Dafny `string` is a sequence of Unicode scalar values. JavaScript's
  `s.length` counts UTF-16 code units, so a character beyond U+FFFF (an emoji, say) counts
  twice. Every sentence length in the model is `Text.JsLength`, which counts code units the
  JavaScript way; `Text.AstralCharacterCountsTwice` shows a sentence where it differs from `|s|`.
- **Numbers.** Sentence lengths are `nat`s. Centroids are exact `real`s. JavaScript's
  `Math.floor(a / b)` is written out as `Config.FloorDiv`, because Dafny's `/` rounds
  differently when the divisor is negative.
- **Falsy options.** An option that is absent or `0` is falsy, so `||` replaces it with the
  default. A negative option is kept as given.
- **Negative `maxBatches`.** This gives a negative cluster count. `new Array(k)` then throws a
  `RangeError` (k-batch.js:44). The model returns `Failure(InvalidArrayLength(k))`.
- **Randomness.** `Math.random()` picks the replacement centroid of an empty cluster. It is
  an injected function `reseed(pass, cluster)`, and its value is used modulo the number of
  sentences.
- **No sentences.** This can only happen with a negative `minSentencesRequired`. JavaScript
  then reads `sortedIndices[-1]` for every seed position (k-batch.js:39), then
  `lengths[undefined]` for the seed centroid (k-batch.js:43), and `lengths[0]` when an empty
  cluster is reseeded (k-batch.js:18). All of these are `undefined`. The model uses the
  stand-in centroid `Clustering.Missing`. This reproduces the JavaScript pass count: one pass, then the
  centroids repeat.
- **Convergence test.** `JSON.stringify` equality of centroid arrays is modelled as equality
  of `real` sequences.
- **Negative `maxIterations`.** A `maxIterations` option of 0 becomes 100 through `||`
  (k-batch.js:132), but a negative one is kept. Then no pass runs, so `kMeans` returns `k`
  empty clusters. `enforceBatchSizeConstraints` hands these back unchanged, and every sentence
  is dropped (`Batching.NoPassesGiveEmptyBatches`). A positive value keeps every sentence
  (`Batching.KBatchKeepsEverySentence`).
- **Sortedness after repair.** One might expect batches to stay longest-first after repair,
  since each batch is sorted at k-batch.js:146. The code then appends the smallest batch to
  the end of another batch without re-sorting it (k-batch.js:113), so a merged batch can have
  a longer sentence after shorter ones. `Repair.MergeCanBreakLongestFirst` exhibits such an
  input.
- **Cluster count.** The `Math.max(1, …)` at k-batch.js:137 suggests at least one cluster.
  That holds only when `maxBatches >= 1`; a negative `maxBatches` passes through `Math.min`
  unchanged (`Config.NumClusters`).

## Model

| member | source | states |
|---|---|---|
| Config.OrDefault | k-batch.js:129-132 | an option that is absent or zero yields the default, any other value (negative included) is kept, and a non-zero default never yields zero |
| Config.ResolveConfig | k-batch.js:128-133 | each setting is the caller's non-falsy value, otherwise 5 / 4 / 10 / 100; no setting is ever zero |
| Config.NoOptionsGiveDefaults | k-batch.js:1-4 | an empty options object resolves to maxBatches 5, minSentencesPerBatch 4, minSentencesRequired 10, maxIterations 100 |
| Config.FloorDiv | k-batch.js:137 | `Math.floor(a / b)`: the quotient rounded toward minus infinity, stated as bounds `q*b <= a < q*b + b` (and mirrored for a negative divisor) |
| Config.NumClusters | k-batch.js:137 | the cluster count never exceeds maxBatches; it is at least 1 when maxBatches is at least 1 and equals maxBatches otherwise; when it is 2 or more, that many batches of the minimum size fit in the sentences; when it is below maxBatches, one more such batch would not fit; a negative minimum gives 1 |
| Text.CodeUnits | k-batch.js:27 | a character takes two UTF-16 code units exactly when it lies beyond U+FFFF, otherwise one |
| Text.JsLength | k-batch.js:27 | `s.length` is between the number of characters and twice it; it equals the character count exactly when no character lies beyond U+FFFF, and twice it exactly when all do |
| Text.JsLengthConcat | k-batch.js:27 | the length of a concatenation is the sum of the lengths |
| Text.AstralCharacterCountsTwice | k-batch.js:27 | the emoji U+1F600 is one Dafny character but has JavaScript length 2, and `"a😀b"` has length 4 |
| Clustering.Lengths | k-batch.js:27 | one length per sentence, at the same position, each its JavaScript length (between its character count and twice it) |
| Clustering.Distance | k-batch.js:9-11 | the distance is non-negative and is one of `a - b`, `b - a` |
| Clustering.NearestFrom | k-batch.js:54-55 | the reduce that starts at index 0 and switches only on a strictly smaller distance ends at the first index of least distance |
| Clustering.Nearest | k-batch.js:54-55 | the chosen centroid is at least as close as every centroid and strictly closer than every earlier one |
| Clustering.AssignPrefix | k-batch.js:50-57 | the `forEach` pass over the first `m` sentences keeps one cluster per centroid and puts only already visited indices in them |
| Clustering.AssignPrefixMembers | k-batch.js:53-57 | after the pass over the first `m` sentences, index `i < m` is in cluster `c` exactly when `c` is its first nearest centroid; clusters hold only indices below `m`, each in increasing order |
| Clustering.Assign | k-batch.js:50-57 | the clusters partition the sentence indices, with every index in exactly one cluster, the cluster of its first nearest centroid |
| Clustering.Mean | k-batch.js:19 | the mean of a non-empty cluster's lengths lies between its smallest and largest member length |
| Clustering.Centroid | k-batch.js:17-19 | a non-empty cluster's centroid is its mean length; an empty cluster's is one of the sentence lengths (or the stand-in when there are none) |
| Clustering.ComputeCentroids | k-batch.js:16-21 | one centroid per cluster, each the mean of its cluster or, for an empty cluster, some sentence length |
| Clustering.LengthOrder | k-batch.js:30-32 | the sorted indices are a permutation of `0..n-1` and list lengths in non-decreasing order |
| Clustering.LengthOrderStartsShortest | k-batch.js:30-32 | the first index of the ascending order is a shortest sentence |
| Clustering.SeedPosition | k-batch.js:38 | `Math.min(i * step, n - 1)`: the position is at most `i * step` and at most `n - 1`, and equals one of them |
| Clustering.Spread | k-batch.js:37-40 | the loop pushes exactly `k` positions, the `i`-th being `Math.min(i * step, n - 1)` |
| Clustering.SeedPositions | k-batch.js:35-40 | `k` positions: with `k <= n` position `i` is `i * floor(n / k)` (all distinct, none clipped); with `0 < n < k` it is `i` up to `n - 1` and `n - 1` after; with no sentences every position is -1; always non-decreasing and inside the order when `n > 0` |
| Clustering.SeedPositionsExamples | k-batch.js:35-40 | twelve sentences in three clusters are seeded from sorted positions 0, 4, 8; two sentences in four clusters from 0, 1, 1, 1 |
| Clustering.Picks | k-batch.js:39-43 | the seed at each position is the length of the sentence at that place of the length order; the seeds are input lengths and non-decreasing when the positions are |
| Clustering.SeedsFromOrder | k-batch.js:35-43 | for at least one sentence, seed `i` is the length at seed position `i` of the length order; the seeds are input lengths, non-decreasing, the first the shortest |
| Clustering.SeedCentroids | k-batch.js:35-43 | `k` initial centroids, the `i`-th the length at seed position `i` of the length order; all are input lengths, non-decreasing, the first is the shortest length; with no sentences all are the stand-in |
| Clustering.Start | k-batch.js:43-47 | the state before the loop: `k` empty clusters, the seed centroids, no previous centroids, zero passes; with `k > 0` the loop condition on centroids holds |
| Clustering.Pass | k-batch.js:50-61 | one loop body: the clusters become the nearest-centroid assignment to the current centroids, the previous centroids become the current ones, each new centroid is its cluster's mean or a reseed, and the pass count grows by one |
| Clustering.Continues | k-batch.js:49 | the `while` test: another pass runs exactly when fewer than `maxIterations` passes have run and the centroids differ from the previous ones (the `JSON.stringify` comparison as sequence equality); `Iterate` and `IterateRunsPasses` state the loop through it |
| Clustering.Passes | k-batch.js:49-62 | repeating the loop body until the pass count reaches `n` ends at exactly `n` passes with a well-formed state |
| Clustering.Iterate | k-batch.js:49-62 | when the loop condition (`iterations < maxIterations` and centroids differ from the previous ones) fails the state comes back unchanged, so the loop stops early once the centroids repeat; the condition fails on the result; at most `maxIterations` passes run; after a pass the clusters are the assignment to the previous centroids and each centroid is its cluster's mean or a reseed |
| Clustering.IterateRunsPasses | k-batch.js:49-62 | the loop's result is the chain of loop bodies from its start state, and the loop condition held before every pass of that chain |
| Clustering.KMeans | k-batch.js:26-67 | a negative `k` fails; otherwise `k` clusters over valid indices come back. With positive `k` and a positive limit at least one pass runs; with no pass, all clusters are empty. After a pass the clusters are the nearest-centroid assignment. A run that stops before the limit has reached a fixed point of assignment. After exactly one pass, the previous centroids are the seeds and the clusters their assignment |
| Clustering.NoClustersRunNoPass | k-batch.js:43-49 | with `k = 0` the centroids and the previous centroids are both `[]`, so they compare equal and no pass runs whatever the limit: the result is no clusters, no centroids, zero passes |
| Clustering.KMeansRunsFromSeeds | k-batch.js:26-67 | for `k >= 0`, `kMeans` returns the chain of loop bodies from the seeded start state (`k` empty clusters, seed centroids, no previous centroids), the loop condition held before each of its passes, and with positive `k` and limit the first pass assigns the sentences to the seed centroids |
| Clustering.KMeansStopsWhenCentroidsRepeat | k-batch.js:49 | two sentences of length 2 in one cluster with 100 passes allowed stop after one pass, because the recomputed centroid equals the seed |
| Clustering.PassOnEqualLengths | k-batch.js:50-61 | with one cluster and all sentences of the same length, one pass sets the centroid to that length |
| Sorting.Insert | k-batch.js:31 | inserting into a key-ordered sequence keeps it ordered, adds exactly the new element, and puts either it or the old first element in front |
| Sorting.SortBy | k-batch.js:31 | the result is ordered by the key and is a permutation of the input |
| Repair.ScanSmallest | k-batch.js:85-93 | the scan with `Infinity` as its initial size finds the first position of least size, skipping one position, or reports that none exists |
| Repair.Smallest | k-batch.js:85-93 | -1 exactly for no batches, otherwise the first batch of least size |
| Repair.NextSmallest | k-batch.js:101-109 | -1 exactly when there is at most one batch, otherwise the first batch of least size other than the smallest |
| Repair.Merge | k-batch.js:112-116 | one fewer batch; the target batch gets the smallest appended at its end; all other batches keep their order; the sentences are preserved as a multiset |
| Repair.MergeDue | k-batch.js:96 | the loop's test for another merge: more than one batch and the smallest below the minimum (the `break` at k-batch.js:96 is its negation) |
| Repair.MergeStep | k-batch.js:85-116 | one loop body: merging the smallest batch into the next-smallest leaves one batch fewer |
| Repair.MergeDownTo | k-batch.js:80-117 | repeating the loop body until `n` batches are left gives exactly `n` batches |
| Repair.MergeSmallBatches | k-batch.js:80-117 | ends with one batch or with every batch at the minimum; never adds batches; keeps every sentence exactly once; is the identity when every batch already meets the minimum or there is at most one batch; keeps batches non-empty |
| Repair.MergeRunsSteps | k-batch.js:80-117 | the loop's result is the greedy chain of merges, smallest into next-smallest, down to the number of batches it returns; a merge was due at every larger batch count of that chain and none is due at the end |
| Repair.MergeFirstOfThree | k-batch.js:85-116 | of three batches, a strictly shortest first one is appended to the end of the second when the second is no longer than the third |
| Repair.OneMergeKeepsTwoBatches | k-batch.js:80-117 | `[["a"], ["b","c","d","e"], ["f","g","h","i"]]` with minimum 4 is merged once into `[["b","c","d","e","a"], ["f","g","h","i"]]`, keeping two batches |
| Repair.DropEmpty | k-batch.js:74 | the kept batches are exactly the non-empty ones, none is empty, and together they hold the same sentences in the same order |
| Repair.DropEmptySingle | k-batch.js:74 | one batch is kept exactly when it is non-empty |
| Repair.DropEmptyConcat | k-batch.js:74 | the filter of a concatenation is the concatenation of the filters, so the kept batches keep their relative order |
| Repair.DropEmptyKeepsNonEmpty | k-batch.js:74 | when no batch is empty, the filter returns the batches unchanged |
| Repair.DropEmptyIsEmpty | k-batch.js:74 | the filter keeps nothing exactly when every batch is empty |
| Repair.DropEmptyMeetsMinimum | k-batch.js:74-98 | when every batch is empty or at the minimum, every kept batch is at the minimum |
| Repair.EnforceBatchSizeConstraints | k-batch.js:72-120 | all-empty input comes back unchanged; otherwise the result is non-empty batches with exactly the input's sentences, and it is one batch or all batches reach the minimum |
| Repair.EnforceRunsMerges | k-batch.js:72-120 | when some batch is non-empty, the result is the greedy chain of merges on the non-empty batches in their order, a merge was due at every larger batch count, and none is due at the end |
| Repair.UnevenRepairs | k-batch.js:72-120 | the whole repair of the three-batch example above keeps two batches, the short one appended to the first full one |
| Repair.NoMergeNeeded | k-batch.js:72-120 | when some batch is non-empty and every non-empty batch already meets the minimum, or only one batch is non-empty, no merge happens: the result is exactly the non-empty batches in their order |
| Repair.FullBatchesUnchanged | k-batch.js:72-120 | batches that are all non-empty and all at the minimum come back unchanged |
| Repair.MergeCanBreakLongestFirst | k-batch.js:113 | two longest-first batches `["aa","bb"]`, `["ccc"]` with minimum 4 are merged into `["aa","bb","ccc"]`, which is not longest-first |
| Batching.Gather | k-batch.js:143 | the inner `map`: position `j` of the batch is the sentence with index `cluster[j]` |
| Batching.Materialize | k-batch.js:143 | one batch per cluster, batch `c` gathering cluster `c`'s sentences |
| Batching.SortLongestFirst | k-batch.js:146 | the batch is reordered longest-first, as a permutation of its sentences |
| Batching.SortBatches | k-batch.js:146 | every batch is sorted longest-first and keeps its sentences |
| Batching.SortBatchesKeepsSentences | k-batch.js:146 | sorting inside batches preserves the multiset of all sentences |
| Batching.AssignedSentences | k-batch.js:53-57 | for any lengths aligned with the sentences, turning the clusters of the first `m` sentences into sentence batches yields exactly those `m` sentences |
| Batching.ClusterBatches | k-batch.js:143-146 | one batch per cluster: batch `c` holds exactly cluster `c`'s sentences (as a multiset, with the cluster's size), longest first |
| Batching.KBatchSentences | k-batch.js:126-152 | below the required count the input is one batch; otherwise the call fails exactly when maxBatches is negative, and succeeds with between 1 and the cluster count batches |
| Batching.KBatchKeepsEverySentence | k-batch.js:140-149 | with a positive iteration limit, the batches hold exactly the input sentences, each as often as in the input |
| Batching.NoPassesGiveEmptyBatches | k-batch.js:44-49 | with at least `minSentencesRequired` sentences (past the short-circuit at k-batch.js:135), a negative iteration limit and positive maxBatches, the result is the cluster count of empty batches |
| Batching.KBatchMeetsMinimumOrSingle | k-batch.js:135-151 | for at least one sentence and a `maxIterations` option that is not negative (so a positive limit after defaulting), all batches are non-empty, and there is one batch or every batch meets the minimum |
| Analysis.SentenceLengths | k-batch.js:162 | one JavaScript length per sentence of the batch, at the same position |
| Analysis.Stats | k-batch.js:161-176 | the record has 1-based number, the batch's size, and the longest and shortest lengths, each attained by some sentence and bounding all |
| Analysis.AnalyzeKBatches | k-batch.js:158-181 | `totalBatches` is the batch count and each record describes the batch at its position |
| Analysis.CountsAddUp | k-batch.js:160-171 | the records' sentence counts add up to the number of sentences in all batches |
| Pipeline.BatchThenAnalyze | k-batch.js:126-181 | for a non-empty input and a `maxIterations` option that is not negative, the returned batches are non-empty, so they can be analysed, and their counts add up to the number of input sentences |
| Seqs.RemoveAt | k-batch.js:114 | `splice(i, 1)`: one element fewer, those before `i` unchanged, those after shifted down by one |
| Seqs.Sum | k-batch.js:19 | a sum of non-negative lengths is non-negative |
| Seqs.SumAppend | k-batch.js:19 | adding an element at the back adds it to the sum, so the sum agrees with the left-to-right `reduce` from 0 |
| Seqs.SumBounds | k-batch.js:19 | a sum of values in `[lo, hi]` lies between `count * lo` and `count * hi` |
| Seqs.Max | k-batch.js:163 | the maximum occurs in the list and bounds every element |
| Seqs.Min | k-batch.js:164 | the minimum occurs in the list and bounds every element from below |

## Left out

- The web UI (`webui/`) with its HTTP handling, file reading and sentence splitting: it is I/O around the core.
- `console.log` of the iteration count and the `async` wrappers: they do not affect results.
- Analysis average and standard deviation (k-batch.js:165-167): floating-point rounding and square roots are not modelled.
- Analysis.AnalyzeKBatches: requires non-empty batches. For an empty batch JavaScript reports `-Infinity`/`Infinity` as longest/shortest and `NaN` statistics, which the integer record cannot hold. `kBatchSentences` produces non-empty batches for non-empty input when the `maxIterations` option is not negative (`Pipeline.BatchThenAnalyze`); with a negative one it returns empty batches (`Batching.NoPassesGiveEmptyBatches`).
- Clustering.Mean: exact rational arithmetic, not IEEE-754 doubles. The convergence test can differ from `JSON.stringify` on rounding. Nearest-centroid ties can differ too: with centroids 1/3 and 11/3, length 2 is exactly halfway in the model, which picks cluster 0, while the doubles `0.3333333333333333` and `3.6666666666666665` put 2 closer to the second, so JavaScript picks cluster 1 (k-batch.js:55). The contract states the bounds of the mean, not that it times the count gives the sum.
- Strings containing an unpaired surrogate: JavaScript allows them, but a Dafny `string` cannot hold one, so such sentences are not modelled.
- Sorting.SortBy: a stable insertion sort stands in for `Array.prototype.sort`. Ties between equal lengths may be ordered differently in JavaScript engines; the contracts only state order and permutation.
- `Math.random()`: replaced by the injected `reseed` function, so no distributional property is stated.
- Options that are not integers (strings, fractions, `NaN`, `null` options objects) are not modelled. Options are absent or integers.
- Clustering.Iterate: does not state that later passes converge or improve the clustering. JavaScript does not promise either; only the pass bound and the stopping condition are stated.

=== FILE: analysis.dfy ===
/**
 * The integer part of `analyzeKBatches` (k-batch.js): batch count, and per batch its 1-based
 * number, sentence count, longest and shortest sentence length.
 */
module Analysis {
  import opened Seqs
  import opened Repair
  import opened Text

  /** The per-batch record, without the rounded average and standard deviation. */
  datatype BatchStats = BatchStats(
    batchNumber: nat,
    sentenceCount: nat,
    longestSentence: nat,
    shortestSentence: nat)

  /** The analysis of a sequence of batches. */
  datatype BatchAnalysis = BatchAnalysis(totalBatches: nat, batches: seq<BatchStats>)

  /** `batch.map(sentence => sentence.length)`. */
  function SentenceLengths(b: Batch): (ls: seq<int>)
    ensures |ls| == |b|
    ensures forall j :: 0 <= j < |b| ==> ls[j] == JsLength(b[j])
  {
    seq(|b|, j requires 0 <= j < |b| => JsLength(b[j]))
  }

  /** The record of the batch at position `index`. */
  function Stats(b: Batch, index: nat): (s: BatchStats)
    requires |b| > 0
    ensures s.batchNumber == index + 1
    ensures s.sentenceCount == |b|
    ensures exists j :: 0 <= j < |b| && JsLength(b[j]) == s.longestSentence
    ensures forall j :: 0 <= j < |b| ==> JsLength(b[j]) <= s.longestSentence
    ensures exists j :: 0 <= j < |b| && JsLength(b[j]) == s.shortestSentence
    ensures forall j :: 0 <= j < |b| ==> s.shortestSentence <= JsLength(b[j])
  {
    var ls := SentenceLengths(b);
    var longest := Max(ls);
    var shortest := Min(ls);
    assert exists j :: 0 <= j < |b| && ls[j] == longest;
    assert exists j :: 0 <= j < |b| && ls[j] == shortest;
    BatchStats(index + 1, |b|, longest, shortest)
  }

  /** `analyzeKBatches(batches)` on non-empty batches. */
  function AnalyzeKBatches(batches: seq<Batch>): (a: BatchAnalysis)
    requires AllNonEmpty(batches)
    ensures a.totalBatches == |batches| == |a.batches|
    ensures forall i :: 0 <= i < |batches| ==>
              && a.batches[i].batchNumber == i + 1
              && a.batches[i].sentenceCount == |batches[i]|
              && (forall j :: 0 <= j < |batches[i]| ==>
                    a.batches[i].shortestSentence <= JsLength(batches[i][j]) <= a.batches[i].longestSentence)
              && (exists j :: 0 <= j < |batches[i]| && JsLength(batches[i][j]) == a.batches[i].longestSentence)
              && (exists j :: 0 <= j < |batches[i]| && JsLength(batches[i][j]) == a.batches[i].shortestSentence)
  {
    var stats := seq(|batches|, i requires 0 <= i < |batches| => Stats(batches[i], i));
    assert forall i :: 0 <= i < |batches| ==> stats[i] == Stats(batches[i], i);
    BatchAnalysis(|batches|, stats)
  }

  /** The sentence counts of the records. */
  function Counts(stats: seq<BatchStats>): (cs: seq<int>)
    ensures |cs| == |stats|
    ensures forall i :: 0 <= i < |stats| ==> cs[i] == stats[i].sentenceCount
  {
    seq(|stats|, i requires 0 <= i < |stats| => stats[i].sentenceCount)
  }

  /** The sentence counts of an analysis add up to the number of sentences in all batches. */
  lemma CountsAddUp(batches: seq<Batch>)
    requires AllNonEmpty(batches)
    ensures Sum(Counts(AnalyzeKBatches(batches).batches)) == |Flatten(batches)|
  {
    CountsAreSizes(batches);
    SizesAddUp(batches, Counts(AnalyzeKBatches(batches).batches));
  }

  /** Per-batch sizes add up to the size of the concatenation of the batches. */
  lemma {:induction false} SizesAddUp(batches: seq<Batch>, sizes: seq<int>)
    requires |sizes| == |batches|
    requires forall i :: 0 <= i < |batches| ==> sizes[i] == |batches[i]|
    ensures Sum(sizes) == |Flatten(batches)|
    decreases |batches|
  {
    if |batches| > 0 {
      SizesAddUp(batches[1..], sizes[1..]);
    }
  }

  /** The record of each batch counts that batch's sentences. */
  lemma CountsAreSizes(batches: seq<Batch>)
    requires AllNonEmpty(batches)
    ensures |Counts(AnalyzeKBatches(batches).batches)| == |batches|
    ensures forall i :: 0 <= i < |batches| ==> Counts(AnalyzeKBatches(batches).batches)[i] == |batches[i]|
  {
  }
}

=== FILE: batching.dfy ===
/**
 * `kBatchSentences` (k-batch.js): defaults, the small-input short-circuit, the cluster count,
 * k-means over sentence lengths, longest-first ordering of each batch and the merge repair.
 */
module Batching {
  import opened Wrappers
  import opened Seqs
  import opened Sorting
  import opened Config
  import opened Clustering
  import opened Repair
  import opened Text

  /** `cluster.map(i => sentences[i])`. */
  function Gather(cluster: seq<nat>, sentences: seq<string>): (b: Batch)
    requires Below(cluster, |sentences|)
    ensures |b| == |cluster|
    ensures forall j :: 0 <= j < |cluster| ==> b[j] == sentences[cluster[j]]
  {
    seq(|cluster|, j requires 0 <= j < |cluster| => sentences[cluster[j]])
  }

  /** `clusters.map(cluster => cluster.map(i => sentences[i]))`. */
  function Materialize(clusters: seq<seq<nat>>, sentences: seq<string>): (bs: seq<Batch>)
    requires MembersBelow(clusters, |sentences|)
    ensures |bs| == |clusters|
    ensures forall c :: 0 <= c < |clusters| ==> bs[c] == Gather(clusters[c], sentences)
  {
    seq(|clusters|, c requires 0 <= c < |clusters| => Gather(clusters[c], sentences))
  }

  /** `batch.sort((a, b) => b.length - a.length)`: a longest-first permutation of the batch. */
  function SortLongestFirst(b: Batch): (r: Batch)
    ensures LongestFirst(r)
    ensures multiset(r) == multiset(b)
  {
    var key := (s: string) => -(JsLength(s) as int);
    var r := SortBy(b, key);
    assert forall i, j :: 0 <= i < j < |r| ==> key(r[i]) <= key(r[j]);
    r
  }

  /** Sorting every batch in place. */
  function SortBatches(bs: seq<Batch>): (r: seq<Batch>)
    ensures |r| == |bs|
    ensures forall i :: 0 <= i < |bs| ==> LongestFirst(r[i]) && multiset(r[i]) == multiset(bs[i])
  {
    seq(|bs|, i requires 0 <= i < |bs| => SortLongestFirst(bs[i]))
  }

  /** Sorting the batches one by one leaves the sentences of all batches together unchanged. */
  lemma {:induction false} SortBatchesKeepsSentences(bs: seq<Batch>)
    ensures multiset(Flatten(SortBatches(bs))) == multiset(Flatten(bs))
    decreases |bs|
  {
    if |bs| > 0 {
      var sorted := SortBatches(bs);
      SortBatchesKeepsSentences(bs[1..]);
      assert sorted[1..] == SortBatches(bs[1..]);
      assert Flatten(sorted) == sorted[0] + Flatten(sorted[1..]);
      assert multiset(sorted[0]) == multiset(bs[0]);
    }
  }

  /** A sequence of empty batches flattens to nothing. */
  lemma {:induction false} FlattenEmptyBatches(bs: seq<Batch>)
    requires forall i :: 0 <= i < |bs| ==> bs[i] == []
    ensures Flatten(bs) == []
    decreases |bs|
  {
    if |bs| > 0 {
      FlattenEmptyBatches(bs[1..]);
    }
  }

  /**
   * Gathering the clusters of an assignment pass over the first `m` sentences yields exactly
   * those `m` sentences, each once.
   */
  lemma {:induction false} AssignedSentences(sentences: seq<string>, lengths: seq<nat>, cs: seq<real>, m: nat)
    requires |lengths| == |sentences|
    requires |cs| > 0 && m <= |sentences|
    ensures MembersBelow(AssignPrefix(lengths, cs, m), |sentences|)
    ensures multiset(Flatten(Materialize(AssignPrefix(lengths, cs, m), sentences)))
         == multiset(sentences[..m])
    decreases m
  {
    if m == 0 {
      NothingAssigned(sentences, lengths, cs);
    } else {
      AssignedSentences(sentences, lengths, cs, m - 1);
      AssignedSentencesStep(sentences, lengths, cs, m);
    }
  }

  /** Before the pass, the clusters gather no sentence. */
  lemma NothingAssigned(sentences: seq<string>, lengths: seq<nat>, cs: seq<real>)
    requires |lengths| == |sentences|
    requires |cs| > 0
    ensures MembersBelow(AssignPrefix(lengths, cs, 0), |sentences|)
    ensures Flatten(Materialize(AssignPrefix(lengths, cs, 0), sentences)) == []
  {
    var none := AssignPrefix(lengths, cs, 0);
    MembersBelowWeaken(none, 0, |sentences|);
    FlattenEmptyBatches(Materialize(none, sentences));
  }

  /** The inductive step of `AssignedSentences`: the pass over `m` sentences adds sentence `m - 1`. */
  lemma AssignedSentencesStep(sentences: seq<string>, lengths: seq<nat>, cs: seq<real>, m: nat)
    requires |lengths| == |sentences|
    requires |cs| > 0 && 0 < m <= |sentences|
    requires MembersBelow(AssignPrefix(lengths, cs, m - 1), |sentences|)
    requires multiset(Flatten(Materialize(AssignPrefix(lengths, cs, m - 1), sentences)))
          == multiset(sentences[..m - 1])
    ensures MembersBelow(AssignPrefix(lengths, cs, m), |sentences|)
    ensures multiset(Flatten(Materialize(AssignPrefix(lengths, cs, m), sentences)))
         == multiset(sentences[..m])
  {
    var before := AssignPrefix(lengths, cs, m - 1);
    var c := Nearest(lengths[m - 1] as real, cs);
    assert AssignPrefix(lengths, cs, m) == before[c := before[c] + [m - 1]];
    PushSentence(before, c, m, sentences);
  }

  /** One step of the assignment pass: pushing index `m - 1` adds sentence `m - 1` to the gathered sentences. */
  lemma PushSentence(before: seq<seq<nat>>, c: nat, m: nat, sentences: seq<string>)
    requires MembersBelow(before, |sentences|)
    requires c < |before| && 0 < m <= |sentences|
    requires multiset(Flatten(Materialize(before, sentences))) == multiset(sentences[..m - 1])
    ensures MembersBelow(before[c := before[c] + [m - 1]], |sentences|)
    ensures multiset(Flatten(Materialize(before[c := before[c] + [m - 1]], sentences))) == multiset(sentences[..m])
  {
    var gathered := Materialize(before, sentences);
    MaterializeAppend(before, c, m - 1, sentences);
    FlattenAppendAt(gathered, c, [sentences[m - 1]]);
    assert sentences[..m] == sentences[..m - 1] + [sentences[m - 1]];
  }

  /** Pushing index `i` onto cluster `c` pushes sentence `i` onto the gathered batch `c`. */
  lemma MaterializeAppend(clusters: seq<seq<nat>>, c: nat, i: nat, sentences: seq<string>)
    requires MembersBelow(clusters, |sentences|)
    requires c < |clusters| && i < |sentences|
    ensures MembersBelow(clusters[c := clusters[c] + [i]], |sentences|)
    ensures var gathered := Materialize(clusters, sentences);
            Materialize(clusters[c := clusters[c] + [i]], sentences) == gathered[c := gathered[c] + [sentences[i]]]
  {
    var after := clusters[c := clusters[c] + [i]];
    assert MembersBelow(after, |sentences|) by {
      forall d | 0 <= d < |after| ensures Below(after[d], |sentences|) {
        assert Below(clusters[d], |sentences|);
      }
    }
    var gathered := Materialize(clusters, sentences);
    var lhs := Materialize(after, sentences);
    var rhs := gathered[c := gathered[c] + [sentences[i]]];
    forall d | 0 <= d < |lhs| ensures lhs[d] == rhs[d] {
      if d == c {
        assert Gather(after[c], sentences) == Gather(clusters[c], sentences) + [sentences[i]];
      }
    }
    assert lhs == rhs;
  }

  lemma MembersBelowWeaken(clusters: seq<seq<nat>>, m: nat, n: nat)
    requires MembersBelow(clusters, m) && m <= n
    ensures MembersBelow(clusters, n)
  {
    forall c | 0 <= c < |clusters| ensures Below(clusters[c], n) {
      assert Below(clusters[c], m);
    }
  }

  /** The batches before repair: each cluster's sentences, longest first. */
  function ClusterBatches(sentences: seq<string>, run: Run): (bs: seq<Batch>)
    requires MembersBelow(run.clusters, |sentences|)
    ensures |bs| == |run.clusters|
    ensures forall c :: 0 <= c < |bs| ==> LongestFirst(bs[c])
    ensures forall c :: 0 <= c < |bs| ==> |bs[c]| == |run.clusters[c]|
    ensures forall c :: 0 <= c < |bs| ==>
              multiset(bs[c]) == multiset(Gather(run.clusters[c], sentences))
  {
    SortBatches(Materialize(run.clusters, sentences))
  }

  /**
   * `kBatchSentences(sentences, options)`. The random choice k-means makes for an empty
   * cluster is the injected `reseed`.
   */
  function KBatchSentences(sentences: seq<string>, options: Options, reseed: (nat, nat) -> nat): (r: Result<seq<Batch>, Error>)
    ensures var config := ResolveConfig(options);
            |sentences| < config.minSentencesRequired ==> r == Success([sentences])
    ensures var config := ResolveConfig(options);
            r.Failure? <==> |sentences| >= config.minSentencesRequired && config.maxBatches < 0
    ensures var config := ResolveConfig(options);
            r.Success? && |sentences| >= config.minSentencesRequired ==>
              1 <= |r.value| <= NumClusters(|sentences|, config.maxBatches, config.minSentencesPerBatch)
  {
    var config := ResolveConfig(options);
    if |sentences| < config.minSentencesRequired then Success([sentences])
    else
      var k := NumClusters(|sentences|, config.maxBatches, config.minSentencesPerBatch);
      match KMeans(Lengths(sentences), k, config.maxIterations, reseed)
      case Failure(e) => Failure(e)
      case Success(run) =>
        var batches := ClusterBatches(sentences, run);
        var r := EnforceBatchSizeConstraints(batches, config.minSentencesPerBatch);
        assert |r| >= 1 by {
          if forall i :: 0 <= i < |batches| ==> |batches[i]| == 0 {
            assert r == batches;
          }
        }
        Success(r)
  }

  /** The run k-means makes for `sentences` once the short-circuit is passed. */
  function RunFor(sentences: seq<string>, config: Settings, reseed: (nat, nat) -> nat): Result<Run, Error>
    requires config.minSentencesPerBatch != 0
  {
    KMeans(Lengths(sentences), NumClusters(|sentences|, config.maxBatches, config.minSentencesPerBatch), config.maxIterations, reseed)
  }

  /** Past the short-circuit, a successful call returns the repaired batches of the k-means run. */
  lemma RepairedRun(sentences: seq<string>, options: Options, reseed: (nat, nat) -> nat)
    requires KBatchSentences(sentences, options, reseed).Success?
    requires |sentences| >= ResolveConfig(options).minSentencesRequired
    ensures ResolveConfig(options).maxBatches > 0
    ensures RunFor(sentences, ResolveConfig(options), reseed).Success?
    ensures var run := RunFor(sentences, ResolveConfig(options), reseed).value;
            && MembersBelow(run.clusters, |sentences|)
            && KBatchSentences(sentences, options, reseed).value
               == EnforceBatchSizeConstraints(ClusterBatches(sentences, run), ResolveConfig(options).minSentencesPerBatch)
  {
  }

  /** With positive `maxBatches` and `maxIterations`, the run's clusters are an assignment pass. */
  lemma RunAssigns(sentences: seq<string>, config: Settings, reseed: (nat, nat) -> nat)
    requires config.minSentencesPerBatch != 0 && config.maxBatches > 0 && config.maxIterations > 0
    ensures RunFor(sentences, config, reseed).Success?
    ensures var run := RunFor(sentences, config, reseed).value;
            |run.previous| > 0 && run.clusters == Assign(Lengths(sentences), run.previous)
  {
  }

  /**
   * Partition: whenever at least one k-means pass is allowed, the batches hold exactly the
   * input sentences, each as often as in the input.
   */
  lemma KBatchKeepsEverySentence(sentences: seq<string>, options: Options, reseed: (nat, nat) -> nat)
    requires KBatchSentences(sentences, options, reseed).Success?
    requires ResolveConfig(options).maxIterations > 0
    ensures multiset(Flatten(KBatchSentences(sentences, options, reseed).value)) == multiset(sentences)
  {
    var config := ResolveConfig(options);
    var r := KBatchSentences(sentences, options, reseed).value;
    if |sentences| < config.minSentencesRequired {
      assert r == [sentences];
      assert Flatten(r) == sentences + Flatten([]);
    } else {
      RepairedRun(sentences, options, reseed);
      RunAssigns(sentences, config, reseed);
      var run := RunFor(sentences, config, reseed).value;
      ClusterBatchesKeepSentences(sentences, run);
    }
  }

  /** The batches built from an assignment pass hold exactly the input sentences. */
  lemma ClusterBatchesKeepSentences(sentences: seq<string>, run: Run)
    requires |run.previous| > 0
    requires run.clusters == Assign(Lengths(sentences), run.previous)
    ensures MembersBelow(run.clusters, |sentences|)
    ensures multiset(Flatten(ClusterBatches(sentences, run))) == multiset(sentences)
  {
    assert run.clusters == AssignPrefix(Lengths(sentences), run.previous, |sentences|);
    AssignedSentences(sentences, Lengths(sentences), run.previous, |sentences|);
    assert sentences[..|sentences|] == sentences;
    SortBatchesKeepsSentences(Materialize(run.clusters, sentences));
  }

  /**
   * A negative `maxIterations` runs no k-means pass: the result is `k` empty batches and every
   * sentence is dropped.
   */
  lemma NoPassesGiveEmptyBatches(sentences: seq<string>, options: Options, reseed: (nat, nat) -> nat)
    requires |sentences| >= ResolveConfig(options).minSentencesRequired
    requires ResolveConfig(options).maxBatches > 0
    requires ResolveConfig(options).maxIterations < 0
    ensures var config := ResolveConfig(options);
            var k := NumClusters(|sentences|, config.maxBatches, config.minSentencesPerBatch);
            KBatchSentences(sentences, options, reseed) == Success(seq(k, _ => []))
  {
    var config := ResolveConfig(options);
    RepairedRun(sentences, options, reseed);
    var run := RunFor(sentences, config, reseed).value;
    assert run.passes == 0;
    EmptyClustersGiveEmptyBatches(sentences, run, config.minSentencesPerBatch);
  }

  /** Clusters that are all empty come out of batching and repair as that many empty batches. */
  lemma EmptyClustersGiveEmptyBatches(sentences: seq<string>, run: Run, minPerBatch: int)
    requires MembersBelow(run.clusters, |sentences|)
    requires forall c :: 0 <= c < |run.clusters| ==> run.clusters[c] == []
    ensures EnforceBatchSizeConstraints(ClusterBatches(sentences, run), minPerBatch) == seq(|run.clusters|, _ => [])
  {
    var batches := ClusterBatches(sentences, run);
    assert forall i :: 0 <= i < |batches| ==> |batches[i]| == 0 by {
      forall i | 0 <= i < |batches| ensures |batches[i]| == 0 {
        assert run.clusters[i] == [];
        assert |multiset(batches[i])| == |batches[i]|;
      }
    }
    assert batches == seq(|run.clusters|, _ => []);
  }

  /**
   * Size repair on a real run: with at least one sentence and at least one pass, every batch is
   * non-empty, and either a single batch is left or every batch reaches `minSentencesPerBatch`.
   */
  lemma KBatchMeetsMinimumOrSingle(sentences: seq<string>, options: Options, reseed: (nat, nat) -> nat)
    requires KBatchSentences(sentences, options, reseed).Success?
    requires |sentences| > 0
    requires ResolveConfig(options).maxIterations > 0
    ensures var r := KBatchSentences(sentences, options, reseed).value;
            && AllNonEmpty(r)
            && (|r| == 1 || forall i :: 0 <= i < |r| ==> |r[i]| >= ResolveConfig(options).minSentencesPerBatch)
  {
    var config := ResolveConfig(options);
    var r := KBatchSentences(sentences, options, reseed).value;
    if |sentences| >= config.minSentencesRequired {
      RepairedRun(sentences, options, reseed);
      RunAssigns(sentences, config, reseed);
      var run := RunFor(sentences, config, reseed).value;
      assert r == EnforceBatchSizeConstraints(ClusterBatches(sentences, run), config.minSentencesPerBatch);
      PartitionRepairs(sentences, run, config.minSentencesPerBatch);
    } else {
      assert r == [sentences];
    }
  }

  /** Repairing the batches of a partition of at least one sentence meets the minimum or leaves one batch. */
  lemma PartitionRepairs(sentences: seq<string>, run: Run, minPerBatch: int)
    requires MembersBelow(run.clusters, |sentences|)
    requires IsPartition(run.clusters, |sentences|) && |sentences| > 0
    ensures var r := EnforceBatchSizeConstraints(ClusterBatches(sentences, run), minPerBatch);
            AllNonEmpty(r) && (|r| == 1 || forall i :: 0 <= i < |r| ==> |r[i]| >= minPerBatch)
  {
    SomeBatchNonEmpty(sentences, run);
  }

  /** When the clusters partition at least one sentence, some batch before repair is non-empty. */
  lemma SomeBatchNonEmpty(sentences: seq<string>, run: Run)
    requires MembersBelow(run.clusters, |sentences|)
    requires IsPartition(run.clusters, |sentences|) && |sentences| > 0
    ensures exists i :: 0 <= i < |run.clusters| && |ClusterBatches(sentences, run)[i]| > 0
  {
    assert InSomeCluster(run.clusters, 0);
    var c :| 0 <= c < |run.clusters| && 0 in run.clusters[c];
    var batches := ClusterBatches(sentences, run);
    assert |multiset(batches[c])| == |batches[c]|;
    assert |Materialize(run.clusters, sentences)[c]| > 0;
  }
}

=== FILE: clustering.dfy ===
/**
 * The bounded one-dimensional k-means of k-batch.js (`distance`, `computeCentroids`, `kMeans`):
 * sentences are clustered by their lengths around `k` centroids.
 */
module Clustering {
  import opened Wrappers
  import opened Seqs
  import opened Sorting
  import Config
  import opened Text

  /** The errors a clustering run can raise. */
  datatype Error =
    | InvalidArrayLength(length: int)  // `new Array(k)` with a negative `k` throws a RangeError

  /**
   * Stands for JavaScript `undefined`, which the source reads as a length when the length
   * vector is empty. It never mixes with real lengths: with no sentences every read is `Missing`.
   */
  const Missing: real := 0.0

  /** `sentences.map(s => s.length)`: the JavaScript lengths, aligned with the sentences. */
  function Lengths(sentences: seq<string>): (ls: seq<nat>)
    ensures |ls| == |sentences|
    ensures forall i :: 0 <= i < |sentences| ==> ls[i] == JsLength(sentences[i])
    ensures forall i :: 0 <= i < |sentences| ==> |sentences[i]| <= ls[i] <= 2 * |sentences[i]|
  {
    seq(|sentences|, i requires 0 <= i < |sentences| => JsLength(sentences[i]))
  }

  /** The lengths as real numbers, the values a centroid may be reseeded to. */
  function AsReals(lengths: seq<nat>): (rs: seq<real>)
    ensures |rs| == |lengths|
    ensures forall i :: 0 <= i < |lengths| ==> rs[i] == lengths[i] as real
  {
    seq(|lengths|, i requires 0 <= i < |lengths| => lengths[i] as real)
  }

  // ---------------------------------------------------------------- distance

  /** `distance(a, b)`: the absolute difference. */
  function Distance(a: real, b: real): (d: real)
    ensures d >= 0.0
    ensures d == a - b || d == b - a
  {
    if a >= b then a - b else b - a
  }

  // ---------------------------------------------------------------- assignment

  /** `best` is the first position of `cs[..upto]` at the least distance from `x`. */
  predicate IsFirstNearest(x: real, cs: seq<real>, upto: nat, best: nat)
    requires upto <= |cs|
  {
    && best < upto
    && (forall j :: 0 <= j < upto ==> Distance(x, cs[best]) <= Distance(x, cs[j]))
    && (forall j :: 0 <= j < best ==> Distance(x, cs[best]) < Distance(x, cs[j]))
  }

  /** The `centroids.reduce(...)` fold: a strictly closer centroid replaces the current best. */
  function NearestFrom(x: real, cs: seq<real>, ci: nat, best: nat): (r: nat)
    requires ci <= |cs| && best < |cs|
    requires (ci == 0 && best == 0) || IsFirstNearest(x, cs, ci, best)
    ensures |cs| > 0 ==> IsFirstNearest(x, cs, |cs|, r)
    decreases |cs| - ci
  {
    if ci == |cs| then best
    else
      var best' := if Distance(x, cs[ci]) < Distance(x, cs[best]) then ci else best;
      NearestFrom(x, cs, ci + 1, best')
  }

  /** The cluster a length joins: the lowest-index centroid at minimal distance. */
  function Nearest(x: real, cs: seq<real>): (c: nat)
    requires |cs| > 0
    ensures c < |cs|
    ensures forall j :: 0 <= j < |cs| ==> Distance(x, cs[c]) <= Distance(x, cs[j])
    ensures forall j :: 0 <= j < c ==> Distance(x, cs[c]) < Distance(x, cs[j])
  {
    NearestFrom(x, cs, 0, 0)
  }

  /** Strictly ascending, hence free of duplicates. */
  predicate Increasing(s: seq<nat>)
  {
    forall i, j :: 0 <= i < j < |s| ==> s[i] < s[j]
  }

  /** Index `i` belongs to at least one cluster. */
  predicate InSomeCluster(clusters: seq<seq<nat>>, i: nat)
  {
    exists c :: 0 <= c < |clusters| && i in clusters[c]
  }

  /** Every index below `n` lies in exactly one cluster, and nothing else does. */
  predicate IsPartition(clusters: seq<seq<nat>>, n: nat)
  {
    && (forall c, i :: 0 <= c < |clusters| && i in clusters[c] ==> i < n)
    && (forall i :: 0 <= i < n ==> InSomeCluster(clusters, i))
    && (forall c, d, i :: 0 <= c < |clusters| && 0 <= d < |clusters| && i in clusters[c] && i in clusters[d] ==> c == d)
    && (forall c :: 0 <= c < |clusters| ==> Increasing(clusters[c]))
  }

  /** The `lengths.forEach(...)` pass over the first `m` sentences: each index is pushed onto its nearest cluster. */
  function AssignPrefix(lengths: seq<nat>, cs: seq<real>, m: nat): (clusters: seq<seq<nat>>)
    requires |cs| > 0 && m <= |lengths|
    ensures |clusters| == |cs|
    ensures MembersBelow(clusters, m)
    decreases m
  {
    if m == 0 then seq(|cs|, _ => [])
    else
      var before := AssignPrefix(lengths, cs, m - 1);
      var c := Nearest(lengths[m - 1] as real, cs);
      var after := before[c := before[c] + [m - 1]];
      assert MembersBelow(after, m) by {
        forall d | 0 <= d < |after| ensures Below(after[d], m) {
          assert Below(before[d], m - 1);
        }
      }
      after
  }

  /**
   * After the pass over the first `m` sentences, index `i < m` is in cluster `c` exactly when
   * `c` is its first nearest centroid, and each cluster lists its indices in pushing order.
   */
  lemma {:induction false} AssignPrefixMembers(lengths: seq<nat>, cs: seq<real>, m: nat)
    requires |cs| > 0 && m <= |lengths|
    ensures forall c, i :: 0 <= c < |cs| && i in AssignPrefix(lengths, cs, m)[c] ==> i < m
    ensures forall c, i :: 0 <= c < |cs| && 0 <= i < m ==>
              (i in AssignPrefix(lengths, cs, m)[c] <==> Nearest(lengths[i] as real, cs) == c)
    ensures forall c :: 0 <= c < |cs| ==> Increasing(AssignPrefix(lengths, cs, m)[c])
    decreases m
  {
    if m > 0 {
      AssignPrefixMembers(lengths, cs, m - 1);
      var before := AssignPrefix(lengths, cs, m - 1);
      var c := Nearest(lengths[m - 1] as real, cs);
      assert forall j :: 0 <= j < |before[c]| ==> before[c][j] in before[c];
      assert AssignPrefix(lengths, cs, m) == before[c := before[c] + [m - 1]];
    }
  }

  /** One assignment pass over all sentences. */
  function Assign(lengths: seq<nat>, cs: seq<real>): (clusters: seq<seq<nat>>)
    requires |cs| > 0
    ensures |clusters| == |cs|
    ensures IsPartition(clusters, |lengths|)
    ensures MembersBelow(clusters, |lengths|)
    ensures forall c, i :: 0 <= c < |cs| && 0 <= i < |lengths| ==>
              (i in clusters[c] <==> Nearest(lengths[i] as real, cs) == c)
  {
    var clusters := AssignPrefix(lengths, cs, |lengths|);
    AssignPrefixMembers(lengths, cs, |lengths|);
    assert forall c, d, i :: 0 <= c < |clusters| && 0 <= d < |clusters| && i in clusters[c] && i in clusters[d] ==> c == d by {
      forall c, d, i | 0 <= c < |clusters| && 0 <= d < |clusters| && i in clusters[c] && i in clusters[d] ensures c == d {
        assert Nearest(lengths[i] as real, cs) == c;
      }
    }
    assert forall i :: 0 <= i < |lengths| ==> InSomeCluster(clusters, i) by {
      forall i | 0 <= i < |lengths| ensures InSomeCluster(clusters, i) {
        assert i in clusters[Nearest(lengths[i] as real, cs)];
      }
    }
    clusters
  }

  // ---------------------------------------------------------------- centroids

  /** The lengths of a cluster's members. */
  function MemberLengths(cluster: seq<nat>, lengths: seq<nat>): (ls: seq<int>)
    requires Below(cluster, |lengths|)
    ensures |ls| == |cluster|
    ensures forall j :: 0 <= j < |cluster| ==> ls[j] == lengths[cluster[j]]
  {
    seq(|cluster|, j requires 0 <= j < |cluster| => lengths[cluster[j]] as int)
  }

  lemma CastProduct(n: int, x: int)
    ensures (n * x) as real == n as real * x as real
  {
  }

  /** Integer bounds `n * lo <= sum <= n * hi` carry over to the real quotient `sum / n`. */
  lemma QuotientBetween(sum: int, n: int, lo: int, hi: int)
    requires n > 0 && n * lo <= sum <= n * hi
    ensures lo as real <= sum as real / n as real <= hi as real
  {
    CastProduct(n, lo);
    CastProduct(n, hi);
    var m := sum as real / n as real;
    assert m - lo as real == (sum as real - n as real * lo as real) / n as real;
    assert hi as real - m == (n as real * hi as real - sum as real) / n as real;
  }

  /** The arithmetic mean, which lies between the smallest and largest value. */
  function Mean(xs: seq<int>): (m: real)
    requires |xs| > 0
    ensures Min(xs) as real <= m <= Max(xs) as real
  {
    SumBounds(xs, Min(xs), Max(xs));
    QuotientBetween(Sum(xs), |xs|, Min(xs), Max(xs));
    Sum(xs) as real / |xs| as real
  }

  /** Every member of every cluster indexes the length vector. */
  predicate MembersBelow(clusters: seq<seq<nat>>, n: nat)
  {
    forall c :: 0 <= c < |clusters| ==> Below(clusters[c], n)
  }

  /** Members index the length vector. */
  predicate Below(cluster: seq<nat>, n: nat)
  {
    forall j :: 0 <= j < |cluster| ==> cluster[j] < n
  }

  /**
   * What a centroid is: for a non-empty cluster the mean of its members' lengths, which lies
   * between the shortest and longest member; for an empty cluster one of the input lengths.
   */
  predicate IsCentroidOf(x: real, cluster: seq<nat>, lengths: seq<nat>)
    requires Below(cluster, |lengths|)
  {
    if |cluster| > 0 then
      var ms := MemberLengths(cluster, lengths);
      x == Mean(ms) && Min(ms) as real <= x <= Max(ms) as real
    else if |lengths| > 0 then x in AsReals(lengths)
    else x == Missing
  }

  /** The centroid of one cluster: its mean length, or the length at position `draw` (mod n) when it is empty. */
  function Centroid(cluster: seq<nat>, lengths: seq<nat>, draw: nat): (x: real)
    requires Below(cluster, |lengths|)
    ensures IsCentroidOf(x, cluster, lengths)
  {
    if |cluster| == 0 then
      if |lengths| == 0 then Missing
      else
        var p := draw % |lengths|;
        var x := AsReals(lengths)[p];
        assert x in AsReals(lengths);
        x
    else
      var ms := MemberLengths(cluster, lengths);
      var x := Mean(ms);
      assert IsCentroidOf(x, cluster, lengths);
      x
  }

  /**
   * `computeCentroids`. The random choice for an empty cluster is injected: `reseed(pass, c)`
   * picks a position in the length vector for cluster `c` in pass `pass`.
   */
  function ComputeCentroids(clusters: seq<seq<nat>>, lengths: seq<nat>, pass: nat, reseed: (nat, nat) -> nat): (cs: seq<real>)
    requires MembersBelow(clusters, |lengths|)
    ensures |cs| == |clusters|
    ensures forall c :: 0 <= c < |clusters| ==> IsCentroidOf(cs[c], clusters[c], lengths)
  {
    var cs := seq(|clusters|, c requires 0 <= c < |clusters| => Centroid(clusters[c], lengths, reseed(pass, c)));
    assert forall c :: 0 <= c < |clusters| ==> IsCentroidOf(cs[c], clusters[c], lengths) by {
      forall c | 0 <= c < |clusters| ensures IsCentroidOf(cs[c], clusters[c], lengths) {
        assert cs[c] == Centroid(clusters[c], lengths, reseed(pass, c));
      }
    }
    cs
  }

  // ---------------------------------------------------------------- seeding

  /** Sentence indices ordered by ascending length (the `sortedIndices` array). */
  function LengthOrder(lengths: seq<nat>): (order: seq<nat>)
    ensures |order| == |lengths|
    ensures multiset(order) == multiset(Range(|lengths|))
    ensures forall j :: 0 <= j < |order| ==> order[j] < |lengths|
    ensures forall i, j :: 0 <= i < j < |order| ==> lengths[order[i]] <= lengths[order[j]]
  {
    var key := (i: nat) => if i < |lengths| then lengths[i] as int else 0;
    var order := SortBy(Range(|lengths|), key);
    assert forall j :: 0 <= j < |order| ==> order[j] in multiset(Range(|lengths|));
    order
  }

  lemma MulMonotone(a: int, b: int, s: nat)
    requires a <= b
    ensures a * s <= b * s
  {
  }

  /** With `0 < k <= n` the last evenly spaced position `(k-1) * (n / k)` stays inside the array. */
  lemma SpreadFits(n: nat, k: nat, i: nat)
    requires 0 < k <= n && i < k
    ensures n / k >= 1
    ensures i * (n / k) <= n - 1
  {
    var s := n / k;
    assert n == k * s + n % k;
    MulMonotone(i, k - 1, s);
  }

  /** The `i`-th seed position, `Math.min(i * step, n - 1)`. */
  function SeedPosition(i: nat, step: nat, n: nat): (p: int)
    ensures p <= i * step && p <= n - 1
    ensures p == i * step || p == n - 1
  {
    if i * step < n - 1 then i * step else n - 1
  }

  lemma SeedPositionMonotone(i: nat, j: nat, step: nat, n: nat)
    requires i <= j
    ensures SeedPosition(i, step, n) <= SeedPosition(j, step, n)
  {
    MulMonotone(i, j, step);
  }

  /** With `k <= n` the step is `n / k >= 1`, no position is clipped and positions strictly increase. */
  lemma SeedPositionStrict(i: nat, j: nat, n: nat, k: nat)
    requires i < j < k <= n
    ensures SeedPosition(i, n / k, n) < SeedPosition(j, n / k, n)
  {
    SpreadFits(n, k, i);
    SpreadFits(n, k, j);
    MulMonotone(i + 1, j, n / k);
  }

  /** The `k` positions `SeedPosition(i, step, n)` for `i < k`. */
  function Spread(k: nat, step: nat, n: nat): (ps: seq<int>)
    ensures |ps| == k
    ensures forall i :: 0 <= i < k ==> ps[i] == SeedPosition(i, step, n)
  {
    seq(k, i requires 0 <= i < k => SeedPosition(i, step, n))
  }

  /** Evenly spaced positions never decrease, and lie inside a non-empty array. */
  lemma SpreadBounds(k: nat, step: nat, n: nat)
    ensures n > 0 ==> forall i :: 0 <= i < k ==> 0 <= Spread(k, step, n)[i] < n
    ensures n == 0 ==> forall i :: 0 <= i < k ==> Spread(k, step, n)[i] == -1
    ensures forall i, j :: 0 <= i <= j < k ==> Spread(k, step, n)[i] <= Spread(k, step, n)[j]
  {
    var ps := Spread(k, step, n);
    forall i, j | 0 <= i <= j < k ensures ps[i] <= ps[j] {
      SeedPositionMonotone(i, j, step, n);
    }
  }

  /** With `k <= n` and step `n / k`, evenly spaced positions strictly increase. */
  lemma SpreadDistinct(k: nat, n: nat)
    requires 0 < k <= n
    ensures forall i, j :: 0 <= i < j < k ==> Spread(k, n / k, n)[i] < Spread(k, n / k, n)[j]
  {
    var ps := Spread(k, n / k, n);
    forall i, j | 0 <= i < j < k ensures ps[i] < ps[j] {
      SeedPositionStrict(i, j, n, k);
    }
  }

  /** With `0 < k <= n` no position is clipped: position `i` is `i * (n / k)`. */
  lemma SpreadUnclipped(k: nat, n: nat)
    requires 0 < k <= n
    ensures forall i :: 0 <= i < k ==> Spread(k, n / k, n)[i] == i * (n / k)
  {
    forall i | 0 <= i < k ensures Spread(k, n / k, n)[i] == i * (n / k) {
      SpreadFits(n, k, i);
    }
  }

  /** With more clusters than sentences the step is 1 and positions past the last are clipped. */
  lemma SpreadClipped(k: nat, n: nat)
    requires 0 < n < k
    ensures forall i :: 0 <= i < k ==> Spread(k, 1, n)[i] == if i < n then i else n - 1
  {
  }

  /**
   * Positions of the seeds in the length order: `Math.min(i * step, n - 1)` with
   * `step = Math.max(1, Math.floor(n / k))`.
   */
  function SeedPositions(n: nat, k: nat): (ps: seq<int>)
    ensures |ps| == k
    ensures n > 0 ==> forall i :: 0 <= i < k ==> 0 <= ps[i] < n
    ensures n == 0 ==> forall i :: 0 <= i < k ==> ps[i] == -1
    ensures forall i, j :: 0 <= i <= j < k ==> ps[i] <= ps[j]
    ensures k <= n ==> forall i, j :: 0 <= i < j < k ==> ps[i] < ps[j]
    ensures k <= n ==> forall i :: 0 <= i < k ==> ps[i] == i * (n / k)
    ensures 0 < n < k ==> forall i :: 0 <= i < k ==> ps[i] == if i < n then i else n - 1
  {
    if k == 0 then []
    else
      var q := Config.FloorDiv(n, k);
      var step: nat := if q > 1 then q else 1;
      SpreadBounds(k, step, n);
      if k <= n then
        SpreadFits(n, k, 0);
        assert step == n / k;
        SpreadDistinct(k, n);
        SpreadUnclipped(k, n);
        Spread(k, step, n)
      else
        assert n > 0 ==> step == 1;
        if n > 0 then SpreadClipped(k, n); Spread(k, step, n)
        else Spread(k, step, n)
  }

  /** Twelve sentences in three clusters are seeded from sorted positions 0, 4 and 8; two sentences in four clusters from positions 0, 1, 1, 1. */
  lemma SeedPositionsExamples()
    ensures SeedPositions(12, 3) == [0, 4, 8]
    ensures SeedPositions(2, 4) == [0, 1, 1, 1]
  {
    var a := SeedPositions(12, 3);
    assert a[0] == 0 && a[1] == 4 && a[2] == 8;
    var b := SeedPositions(2, 4);
    assert b[0] == 0 && b[1] == 1 && b[2] == 1 && b[3] == 1;
  }

  /** The lengths found at positions `ps` of the length order `order`. */
  function Picks(lengths: seq<nat>, order: seq<nat>, ps: seq<int>): (cs: seq<real>)
    requires |order| == |lengths|
    requires forall j :: 0 <= j < |order| ==> order[j] < |lengths|
    requires forall i :: 0 <= i < |ps| ==> 0 <= ps[i] < |order|
    requires forall i, j :: 0 <= i < j < |order| ==> lengths[order[i]] <= lengths[order[j]]
    requires forall i, j :: 0 <= i <= j < |ps| ==> ps[i] <= ps[j]
    ensures |cs| == |ps|
    ensures forall i :: 0 <= i < |ps| ==> cs[i] == lengths[order[ps[i]]] as real
    ensures forall i :: 0 <= i < |ps| ==> cs[i] in AsReals(lengths)
    ensures forall i, j :: 0 <= i <= j < |ps| ==> cs[i] <= cs[j]
  {
    var cs := seq(|ps|, i requires 0 <= i < |ps| => lengths[order[ps[i]]] as real);
    assert forall i :: 0 <= i < |ps| ==> cs[i] in AsReals(lengths) by {
      forall i | 0 <= i < |ps| ensures cs[i] in AsReals(lengths) {
        assert AsReals(lengths)[order[ps[i]]] == cs[i];
      }
    }
    assert forall i, j :: 0 <= i <= j < |ps| ==> cs[i] <= cs[j] by {
      forall i, j | 0 <= i <= j < |ps| ensures cs[i] <= cs[j] {
        if ps[i] < ps[j] {
          assert lengths[order[ps[i]]] <= lengths[order[ps[j]]];
        }
      }
    }
    cs
  }

  /** The first index of the length order is a shortest sentence. */
  lemma LengthOrderStartsShortest(lengths: seq<nat>)
    requires |lengths| > 0
    ensures forall j :: 0 <= j < |lengths| ==> lengths[LengthOrder(lengths)[0]] <= lengths[j]
  {
    var order := LengthOrder(lengths);
    forall j | 0 <= j < |lengths| ensures lengths[order[0]] <= lengths[j] {
      assert Range(|lengths|)[j] == j;
      assert j in multiset(order);
      var p :| 0 <= p < |order| && order[p] == j;
    }
  }

  /**
   * Initial centroids: the lengths at the seed positions of the length order. They are input
   * lengths, never decrease from the first centroid to the last, and the first is the
   * shortest length.
   */
  function SeedCentroids(lengths: seq<nat>, k: nat): (cs: seq<real>)
    ensures |cs| == k
    ensures |lengths| > 0 ==> forall i :: 0 <= i < k ==>
              cs[i] == lengths[LengthOrder(lengths)[SeedPositions(|lengths|, k)[i]]] as real
    ensures |lengths| > 0 ==> forall i :: 0 <= i < k ==> cs[i] in AsReals(lengths)
    ensures |lengths| == 0 ==> forall i :: 0 <= i < k ==> cs[i] == Missing
    ensures forall i, j :: 0 <= i <= j < k ==> cs[i] <= cs[j]
    ensures |lengths| > 0 && k > 0 ==> forall j :: 0 <= j < |lengths| ==> cs[0] <= lengths[j] as real
  {
    if |lengths| == 0 then seq(k, _ => Missing) else SeedsFromOrder(lengths, k)
  }

  /** The seeds of a non-empty length vector, picked from the length order. */
  function SeedsFromOrder(lengths: seq<nat>, k: nat): (cs: seq<real>)
    requires |lengths| > 0
    ensures |cs| == k
    ensures forall i :: 0 <= i < k ==>
              cs[i] == lengths[LengthOrder(lengths)[SeedPositions(|lengths|, k)[i]]] as real
    ensures forall i :: 0 <= i < k ==> cs[i] in AsReals(lengths)
    ensures forall i, j :: 0 <= i <= j < k ==> cs[i] <= cs[j]
    ensures k > 0 ==> forall j :: 0 <= j < |lengths| ==> cs[0] <= lengths[j] as real
  {
    var ps := SeedPositions(|lengths|, k);
    LengthOrderStartsShortest(lengths);
    assert k > 0 ==> ps[0] == 0;
    Picks(lengths, LengthOrder(lengths), ps)
  }

  // ---------------------------------------------------------------- refinement loop

  /** The loop state of `kMeans`: clusters, centroids, previous centroids and passes run. */
  datatype Run = Run(clusters: seq<seq<nat>>, centroids: seq<real>, previous: seq<real>, passes: nat)

  /** `k` clusters over `n` sentences; `previous` is empty before the first pass. */
  predicate WellFormed(run: Run, n: nat, k: nat)
  {
    && |run.clusters| == k
    && |run.centroids| == k
    && (|run.previous| == 0 || |run.previous| == k)
    && MembersBelow(run.clusters, n)
  }

  /** The state before the loop: `k` empty clusters, the seeds as centroids, no previous centroids. */
  function Start(lengths: seq<nat>, k: nat): (run: Run)
    ensures WellFormed(run, |lengths|, k)
    ensures run.passes == 0 && run.previous == []
    ensures forall c :: 0 <= c < k ==> run.clusters[c] == []
    ensures k > 0 ==> run.centroids != run.previous
  {
    Run(seq(k, _ => []), SeedCentroids(lengths, k), [], 0)
  }

  /**
   * One body of the `while` loop: assign every sentence to its first nearest centroid, keep
   * the centroids as the previous ones, recompute them and count the pass.
   */
  function Pass(lengths: seq<nat>, reseed: (nat, nat) -> nat, run: Run): (r: Run)
    requires WellFormed(run, |lengths|, |run.clusters|) && |run.clusters| > 0
    ensures WellFormed(r, |lengths|, |run.clusters|)
    ensures r.passes == run.passes + 1
    ensures r.previous == run.centroids
    ensures r.clusters == Assign(lengths, run.centroids)
    ensures forall c :: 0 <= c < |r.clusters| ==> IsCentroidOf(r.centroids[c], r.clusters[c], lengths)
  {
    var clusters := Assign(lengths, run.centroids);
    Run(clusters, ComputeCentroids(clusters, lengths, run.passes, reseed), run.centroids, run.passes + 1)
  }

  /**
   * Loop bodies run one after another from `run` until `n` passes have run, ignoring the loop
   * condition.
   */
  function Passes(lengths: seq<nat>, reseed: (nat, nat) -> nat, run: Run, n: nat): (r: Run)
    requires WellFormed(run, |lengths|, |run.clusters|) && run.passes <= n
    requires n == run.passes || |run.clusters| > 0
    ensures WellFormed(r, |lengths|, |run.clusters|)
    ensures r.passes == n
    decreases n - run.passes
  {
    if run.passes == n then run else Passes(lengths, reseed, Pass(lengths, reseed, run), n)
  }

  /** The loop condition of `kMeans`. */
  predicate Continues(maxIterations: int, run: Run)
  {
    run.passes < maxIterations && run.centroids != run.previous
  }

  /**
   * The `while` loop of `kMeans`: a pass runs while fewer than `maxIterations` passes have run
   * and the centroids differ from the previous ones. The result is the first state of the
   * chain of passes from `run` at which the loop condition fails.
   */
  function Iterate(lengths: seq<nat>, maxIterations: int, reseed: (nat, nat) -> nat, run: Run): (r: Run)
    requires WellFormed(run, |lengths|, |run.clusters|)
    ensures WellFormed(r, |lengths|, |run.clusters|)
    ensures r.passes >= run.passes
    ensures r.passes == run.passes ==> r == run
    ensures |run.clusters| == 0 ==> r == run
    ensures !Continues(maxIterations, run) ==> r == run
    ensures !Continues(maxIterations, r)
    ensures r.passes > run.passes ==> r.passes <= maxIterations
    ensures r.passes < maxIterations ==> r.centroids == r.previous
    ensures r.passes > run.passes ==>
              && |r.previous| > 0
              && r.clusters == Assign(lengths, r.previous)
              && forall c :: 0 <= c < |r.clusters| ==> IsCentroidOf(r.centroids[c], r.clusters[c], lengths)
    decreases maxIterations - run.passes
  {
    if Continues(maxIterations, run) then
      var next := Pass(lengths, reseed, run);
      Iterate(lengths, maxIterations, reseed, next)
    else run
  }

  /**
   * The loop runs exactly the passes its condition allows: its result is the chain of passes
   * from `run` up to its pass count, and the condition held before every pass of the chain
   * (it fails after the last, by `Iterate`'s contract).
   */
  lemma {:induction false} IterateRunsPasses(lengths: seq<nat>, maxIterations: int, reseed: (nat, nat) -> nat, run: Run)
    requires WellFormed(run, |lengths|, |run.clusters|)
    ensures var r := Iterate(lengths, maxIterations, reseed, run);
            && r == Passes(lengths, reseed, run, r.passes)
            && forall p :: run.passes <= p < r.passes ==> Continues(maxIterations, Passes(lengths, reseed, run, p))
    decreases maxIterations - run.passes
  {
    var r := Iterate(lengths, maxIterations, reseed, run);
    if Continues(maxIterations, run) {
      var next := Pass(lengths, reseed, run);
      assert r == Iterate(lengths, maxIterations, reseed, next);
      IterateRunsPasses(lengths, maxIterations, reseed, next);
      PassesStep(lengths, reseed, run, r.passes);
      forall p | next.passes <= p < r.passes
        ensures Passes(lengths, reseed, run, p) == Passes(lengths, reseed, next, p)
      {
        PassesStep(lengths, reseed, run, p);
      }
    }
  }

  /** Once a pass is due, running up to `n` passes starts with that pass. */
  lemma PassesStep(lengths: seq<nat>, reseed: (nat, nat) -> nat, run: Run, n: nat)
    requires WellFormed(run, |lengths|, |run.clusters|) && |run.clusters| > 0 && run.passes < n
    ensures Passes(lengths, reseed, run, n) == Passes(lengths, reseed, Pass(lengths, reseed, run), n)
  {
  }

  /**
   * `kMeans(sentences, k, maxIterations)` on the length vector: the final loop state, or the
   * RangeError a negative `k` raises.
   */
  function KMeans(lengths: seq<nat>, k: int, maxIterations: int, reseed: (nat, nat) -> nat): (r: Result<Run, Error>)
    ensures r.Failure? <==> k < 0
    ensures r.Success? ==> |r.value.clusters| == k && |r.value.centroids| == k
    ensures r.Success? ==> MembersBelow(r.value.clusters, |lengths|)
    ensures r.Success? ==> r.value.passes <= if maxIterations > 0 then maxIterations else 0
    ensures r.Success? && k > 0 && maxIterations > 0 ==> r.value.passes > 0
    ensures r.Success? && r.value.passes == 0 ==> forall c :: 0 <= c < k ==> r.value.clusters[c] == []
    ensures r.Success? && r.value.passes > 0 ==>
              && k > 0
              && |r.value.previous| == k
              && r.value.clusters == Assign(lengths, r.value.previous)
              && forall c :: 0 <= c < k ==> IsCentroidOf(r.value.centroids[c], r.value.clusters[c], lengths)
    ensures r.Success? && r.value.passes < maxIterations ==> r.value.centroids == r.value.previous
    ensures r.Success? && 0 < r.value.passes < maxIterations ==> r.value.clusters == Assign(lengths, r.value.centroids)
    ensures r.Success? && r.value.passes == 1 ==>
              r.value.previous == SeedCentroids(lengths, k) && r.value.clusters == Assign(lengths, SeedCentroids(lengths, k))
  {
    if k < 0 then Failure(InvalidArrayLength(k))
    else
      var start := Start(lengths, k);
      var r := Iterate(lengths, maxIterations, reseed, start);
      IterateRunsPasses(lengths, maxIterations, reseed, start);
      assert r.passes == 1 ==> r == Pass(lengths, reseed, start);
      Success(r)
  }

  /**
   * With no clusters the centroid array and the previous one are both empty, so they compare
   * equal and the loop runs no pass, whatever the limit.
   */
  lemma NoClustersRunNoPass(lengths: seq<nat>, maxIterations: int, reseed: (nat, nat) -> nat)
    ensures KMeans(lengths, 0, maxIterations, reseed) == Success(Run([], [], [], 0))
  {
    var start := Start(lengths, 0);
    assert start == Run([], [], [], 0);
    assert !Continues(maxIterations, start);
  }

  /** When every sentence has length `v`, the centroid of any non-empty cluster is `v`. */
  lemma UniformCentroid(x: real, cluster: seq<nat>, lengths: seq<nat>, v: nat)
    requires Below(cluster, |lengths|) && |cluster| > 0
    requires forall i :: 0 <= i < |lengths| ==> lengths[i] == v
    requires IsCentroidOf(x, cluster, lengths)
    ensures x == v as real
  {
    var ms := MemberLengths(cluster, lengths);
    assert forall j :: 0 <= j < |ms| ==> ms[j] == v;
  }

  /** Two sentences of length 2 in one cluster are seeded with 2. */
  lemma TwoEqualLengthsSeed()
    ensures Start([2, 2], 1).centroids == [2.0]
  {
    var lengths: seq<nat> := [2, 2];
    var cs := Start(lengths, 1).centroids;
    assert AsReals(lengths) == [2.0, 2.0];
    assert cs[0] in AsReals(lengths);
  }

  /** With one cluster and every sentence of length `v`, a pass sets the centroid to `v`. */
  lemma PassOnEqualLengths(lengths: seq<nat>, reseed: (nat, nat) -> nat, run: Run, v: nat)
    requires WellFormed(run, |lengths|, 1)
    requires |lengths| > 0 && forall i :: 0 <= i < |lengths| ==> lengths[i] == v
    ensures Pass(lengths, reseed, run).centroids == [v as real]
  {
    var first := Pass(lengths, reseed, run);
    assert Nearest(lengths[0] as real, run.centroids) == 0;
    assert 0 in first.clusters[0];
    UniformCentroid(first.centroids[0], first.clusters[0], lengths, v);
  }

  /**
   * Two sentences of length 2 in one cluster: the seed is 2 and the first pass recomputes 2,
   * so the loop stops after one pass although 100 are allowed.
   */
  lemma KMeansStopsWhenCentroidsRepeat(reseed: (nat, nat) -> nat)
    ensures KMeans([2, 2], 1, 100, reseed).Success?
    ensures KMeans([2, 2], 1, 100, reseed).value.passes == 1
  {
    var lengths: seq<nat> := [2, 2];
    var start := Start(lengths, 1);
    TwoEqualLengthsSeed();
    PassOnEqualLengths(lengths, reseed, start, 2);
    var first := Pass(lengths, reseed, start);
    assert Iterate(lengths, 100, reseed, start) == Iterate(lengths, 100, reseed, first);
    assert Iterate(lengths, 100, reseed, first) == first;
  }

  /**
   * `kMeans` runs the loop from the seeded start: its result is the chain of passes from
   * `Start(lengths, k)`, the loop condition held before each of those passes, and the first
   * pass assigns the sentences to the seed centroids.
   */
  lemma KMeansRunsFromSeeds(lengths: seq<nat>, k: nat, maxIterations: int, reseed: (nat, nat) -> nat)
    ensures KMeans(lengths, k, maxIterations, reseed).Success?
    ensures var r := KMeans(lengths, k, maxIterations, reseed).value;
            && (r.passes == 0 || k > 0)
            && r == Passes(lengths, reseed, Start(lengths, k), r.passes)
            && (forall p :: 0 <= p < r.passes ==> Continues(maxIterations, Passes(lengths, reseed, Start(lengths, k), p)))
    ensures var r := KMeans(lengths, k, maxIterations, reseed).value;
            k > 0 && maxIterations > 0 ==>
              && r.passes >= 1
              && Passes(lengths, reseed, Start(lengths, k), 1).previous == SeedCentroids(lengths, k)
              && Passes(lengths, reseed, Start(lengths, k), 1).clusters == Assign(lengths, SeedCentroids(lengths, k))
  {
    var start := Start(lengths, k);
    IterateRunsPasses(lengths, maxIterations, reseed, start);
    if k > 0 && maxIterations > 0 {
      PassesStep(lengths, reseed, start, 1);
    }
  }
}

=== FILE: config.dfy ===
/** Configuration defaults and the cluster count of `kBatchSentences` (k-batch.js). */
module Config {
  import opened Wrappers

  const MaxBatchesDefault: int := 5
  const MinSentencesPerBatchDefault: int := 4
  const MinSentencesRequiredDefault: int := 10
  const MaxIterationsDefault: int := 100

  /** The caller's options; a field the caller leaves out is `None`. */
  datatype Options = Options(
    maxBatches: Option<int>,
    minSentencesPerBatch: Option<int>,
    minSentencesRequired: Option<int>,
    maxIterations: Option<int>)

  /** The four knobs after defaults are applied. */
  datatype Settings = Settings(
    maxBatches: int,
    minSentencesPerBatch: int,
    minSentencesRequired: int,
    maxIterations: int)

  /** An option JavaScript treats as false in `option || fallback`: missing, or the number 0. */
  predicate Falsy(option: Option<int>)
  {
    option.None? || option.value == 0
  }

  /** JavaScript `option || fallback` on a numeric option. */
  function OrDefault(option: Option<int>, fallback: int): (r: int)
    ensures !Falsy(option) ==> r == option.value
    ensures Falsy(option) ==> r == fallback
    ensures fallback != 0 ==> r != 0
  {
    match option
    case Some(v) => if v != 0 then v else fallback
    case None => fallback
  }

  /** The configuration record built at the start of `kBatchSentences`. */
  function ResolveConfig(options: Options): (s: Settings)
    ensures !Falsy(options.maxBatches) ==> s.maxBatches == options.maxBatches.value
    ensures Falsy(options.maxBatches) ==> s.maxBatches == MaxBatchesDefault
    ensures !Falsy(options.minSentencesPerBatch) ==> s.minSentencesPerBatch == options.minSentencesPerBatch.value
    ensures Falsy(options.minSentencesPerBatch) ==> s.minSentencesPerBatch == MinSentencesPerBatchDefault
    ensures !Falsy(options.minSentencesRequired) ==> s.minSentencesRequired == options.minSentencesRequired.value
    ensures Falsy(options.minSentencesRequired) ==> s.minSentencesRequired == MinSentencesRequiredDefault
    ensures !Falsy(options.maxIterations) ==> s.maxIterations == options.maxIterations.value
    ensures Falsy(options.maxIterations) ==> s.maxIterations == MaxIterationsDefault
    ensures s.maxBatches != 0 && s.minSentencesPerBatch != 0
    ensures s.minSentencesRequired != 0 && s.maxIterations != 0
  {
    Settings(
      OrDefault(options.maxBatches, MaxBatchesDefault),
      OrDefault(options.minSentencesPerBatch, MinSentencesPerBatchDefault),
      OrDefault(options.minSentencesRequired, MinSentencesRequiredDefault),
      OrDefault(options.maxIterations, MaxIterationsDefault))
  }

  /** With no options at all, the settings are 5 / 4 / 10 / 100. */
  lemma NoOptionsGiveDefaults()
    ensures ResolveConfig(Options(None, None, None, None)) == Settings(5, 4, 10, 100)
  {
  }

  /** JavaScript `Math.floor(a / b)` for integers, rounding toward minus infinity for either sign of `b`. */
  function FloorDiv(a: int, b: int): (q: int)
    requires b != 0
    ensures b > 0 ==> q * b <= a < q * b + b
    ensures b < 0 ==> q * b + b < a <= q * b
  {
    if b > 0 then a / b else (-a) / (-b)
  }

  /**
   * `numClusters`: `Math.min(maxBatches, Math.max(1, Math.floor(n / minPerBatch)))`.
   * With a positive minimum and at least one allowed batch it is the largest count in
   * `[1, maxBatches]` whose clusters could all hold `minPerBatch` sentences (or 1).
   */
  function NumClusters(n: nat, maxBatches: int, minPerBatch: int): (k: int)
    requires minPerBatch != 0
    ensures k <= maxBatches
    ensures maxBatches >= 1 ==> k >= 1
    ensures maxBatches < 1 ==> k == maxBatches
    ensures minPerBatch < 0 && maxBatches >= 1 ==> k == 1
    ensures minPerBatch > 0 && k >= 2 ==> k * minPerBatch <= n
    ensures minPerBatch > 0 && k < maxBatches ==> n < (k + 1) * minPerBatch
  {
    var q := FloorDiv(n, minPerBatch);
    var atLeastOne := if q > 1 then q else 1;
    assert minPerBatch > 0 && atLeastOne >= 2 ==> atLeastOne * minPerBatch <= n;
    if maxBatches < atLeastOne then
      assert minPerBatch > 0 ==> maxBatches * minPerBatch <= atLeastOne * minPerBatch;
      maxBatches
    else atLeastOne
  }
}

=== FILE: pipeline.dfy ===
/** How the two exported functions compose when batches are analysed after batching. */
module Pipeline {
  import opened Seqs
  import opened Config
  import opened Repair
  import opened Batching
  import opened Analysis

  /**
   * The batches `kBatchSentences` returns for at least one sentence (with at least one pass
   * allowed) meet the analyser's requirement of non-empty batches, and the analysed sentence
   * counts add up to the number of input sentences.
   */
  lemma BatchThenAnalyze(sentences: seq<string>, options: Options, reseed: (nat, nat) -> nat)
    requires KBatchSentences(sentences, options, reseed).Success?
    requires |sentences| > 0
    requires ResolveConfig(options).maxIterations > 0
    ensures AllNonEmpty(KBatchSentences(sentences, options, reseed).value)
    ensures var r := KBatchSentences(sentences, options, reseed).value;
            AllNonEmpty(r) && Sum(Counts(AnalyzeKBatches(r).batches)) == |sentences|
  {
    var r := KBatchSentences(sentences, options, reseed).value;
    KBatchMeetsMinimumOrSingle(sentences, options, reseed);
    KBatchKeepsEverySentence(sentences, options, reseed);
    CountsAddUp(r);
    assert |multiset(Flatten(r))| == |Flatten(r)|;
  }
}

=== FILE: repair.dfy ===
/**
 * `enforceBatchSizeConstraints` (k-batch.js): drops empty batches, then repeatedly appends
 * the smallest batch onto the next-smallest until every batch reaches the minimum size or
 * only one batch is left.
 */
module Repair {
  import opened Seqs
  import opened Text

  /** A batch of sentences. */
  type Batch = seq<string>

  /** JavaScript sentence lengths never increase from the front of the batch to its back. */
  predicate LongestFirst(b: Batch)
  {
    forall i, j :: 0 <= i < j < |b| ==> JsLength(b[i]) >= JsLength(b[j])
  }

  /** Every batch holds at least one sentence. */
  predicate AllNonEmpty(v: seq<Batch>)
  {
    forall i :: 0 <= i < |v| ==> |v[i]| > 0
  }

  /** `best` is the first position below `upto`, other than `skip`, holding a batch of least size. */
  predicate IsFirstSmallest(v: seq<Batch>, skip: int, upto: nat, best: int)
    requires upto <= |v|
  {
    && 0 <= best < upto
    && best != skip
    && (forall j :: 0 <= j < upto && j != skip ==> |v[best]| <= |v[j]|)
    && (forall j :: 0 <= j < best && j != skip ==> |v[best]| < |v[j]|)
  }

  /** No position below `upto` other than `skip` exists. */
  predicate NoCandidate(skip: int, upto: nat)
  {
    upto == 0 || (upto == 1 && skip == 0)
  }

  /**
   * The scan for a smallest batch, skipping position `skip`: `best == -1` stands for the
   * initial size `Infinity`, and a strictly smaller batch replaces the current best.
   */
  function ScanSmallest(v: seq<Batch>, skip: int, i: nat, best: int): (r: int)
    requires i <= |v|
    requires best == -1 <==> NoCandidate(skip, i)
    requires best != -1 ==> IsFirstSmallest(v, skip, i, best)
    ensures r == -1 <==> NoCandidate(skip, |v|)
    ensures r != -1 ==> IsFirstSmallest(v, skip, |v|, r)
    decreases |v| - i
  {
    if i == |v| then best
    else
      var best' := if i != skip && (best == -1 || |v[i]| < |v[best]|) then i else best;
      ScanSmallest(v, skip, i + 1, best')
  }

  /** The smallest batch: the first position of least size, or -1 when there is none. */
  function Smallest(v: seq<Batch>): (s: int)
    ensures |v| == 0 <==> s == -1
    ensures |v| > 0 ==> IsFirstSmallest(v, -1, |v|, s)
  {
    ScanSmallest(v, -1, 0, -1)
  }

  /** The merge target: the first position other than `s` of least size, or -1 when there is none. */
  function NextSmallest(v: seq<Batch>, s: nat): (t: int)
    requires s < |v|
    ensures |v| <= 1 <==> t == -1
    ensures |v| > 1 ==> IsFirstSmallest(v, s, |v|, t)
  {
    ScanSmallest(v, s, 0, -1)
  }

  /**
   * One merge: batch `s` is appended to the end of batch `t` and then removed. The batches
   * keep their order, only `t` changes, and no sentence is lost or duplicated.
   */
  function Merge(v: seq<Batch>, s: nat, t: nat): (r: seq<Batch>)
    requires s < |v| && t < |v| && s != t
    ensures |r| == |v| - 1
    ensures forall i :: 0 <= i < |r| ==>
              var j := if i < s then i else i + 1;
              r[i] == if j == t then v[t] + v[s] else v[j]
    ensures multiset(Flatten(r)) == multiset(Flatten(v))
  {
    MergeKeepsSentences(v, s, t);
    RemoveAt(v[t := v[t] + v[s]], s)
  }

  /** Appending batch `s` to batch `t` and then removing batch `s` keeps every sentence exactly once. */
  lemma MergeKeepsSentences(v: seq<Batch>, s: nat, t: nat)
    requires s < |v| && t < |v| && s != t
    ensures multiset(Flatten(RemoveAt(v[t := v[t] + v[s]], s))) == multiset(Flatten(v))
  {
    var appended := v[t := v[t] + v[s]];
    FlattenAppendAt(v, t, v[s]);
    FlattenRemoveAt(appended, s);
    assert appended[s] == v[s];
    assert multiset(Flatten(RemoveAt(appended, s))) == multiset(Flatten(appended)) - multiset(v[s]);
  }

  /**
   * The loop's test for another merge (k-batch.js:96): more than one batch, and the smallest
   * batch below the minimum.
   */
  predicate MergeDue(v: seq<Batch>, minPerBatch: int)
  {
    |v| > 1 && |v[Smallest(v)]| < minPerBatch
  }

  /** One pass of the loop body: the smallest batch is merged into the next-smallest. */
  function MergeStep(v: seq<Batch>): (r: seq<Batch>)
    requires |v| > 1
    ensures |r| == |v| - 1
  {
    var s := Smallest(v);
    Merge(v, s, NextSmallest(v, s))
  }

  /** Passes of the loop body, one merge each, until `n` batches are left. */
  function MergeDownTo(v: seq<Batch>, n: nat): (r: seq<Batch>)
    requires n <= |v| && (n == |v| || n > 0)
    ensures |r| == n
    decreases |v|
  {
    if n == |v| then v else MergeDownTo(MergeStep(v), n)
  }

  /**
   * The `while (mergeOccurred)` loop on the non-empty batches. It ends with at most one batch
   * or with every batch at least `minPerBatch` long; it never splits a batch and keeps every
   * sentence exactly once.
   */
  function MergeSmallBatches(v: seq<Batch>, minPerBatch: int): (r: seq<Batch>)
    ensures multiset(Flatten(r)) == multiset(Flatten(v))
    ensures |r| <= |v|
    ensures |v| > 0 ==> |r| > 0
    ensures |r| <= 1 || forall i :: 0 <= i < |r| ==> |r[i]| >= minPerBatch
    ensures (forall i :: 0 <= i < |v| ==> |v[i]| >= minPerBatch) ==> r == v
    ensures |v| <= 1 ==> r == v
    ensures AllNonEmpty(v) ==> AllNonEmpty(r)
    decreases |v|
  {
    if !MergeDue(v, minPerBatch) then v
    else
      var merged := MergeStep(v);
      assert AllNonEmpty(v) ==> AllNonEmpty(merged);
      MergeSmallBatches(merged, minPerBatch)
  }

  /**
   * The loop is the greedy chain of merges: its result is what merging the smallest batch into
   * the next-smallest gives once as many batches are left as it returns, a merge was due at
   * every earlier batch count, and none is due at the end.
   */
  lemma {:induction false} MergeRunsSteps(v: seq<Batch>, minPerBatch: int)
    ensures var r := MergeSmallBatches(v, minPerBatch);
            && r == MergeDownTo(v, |r|)
            && (forall n :: |r| < n <= |v| ==> MergeDue(MergeDownTo(v, n), minPerBatch))
            && !MergeDue(r, minPerBatch)
    decreases |v|
  {
    var r := MergeSmallBatches(v, minPerBatch);
    if MergeDue(v, minPerBatch) {
      var next := MergeStep(v);
      assert r == MergeSmallBatches(next, minPerBatch);
      MergeRunsSteps(next, minPerBatch);
      forall n | |r| <= n < |v| ensures MergeDownTo(v, n) == MergeDownTo(next, n) {
      }
    }
  }

  /** `batches.filter(batch => batch.length > 0)`. */
  function DropEmpty(bs: seq<Batch>): (r: seq<Batch>)
    ensures Flatten(r) == Flatten(bs)
    ensures AllNonEmpty(r)
    ensures |r| <= |bs|
    ensures forall b :: b in r <==> b in bs && |b| > 0
    decreases |bs|
  {
    if |bs| == 0 then []
    else
      var rest := DropEmpty(bs[1..]);
      assert forall b :: b in bs <==> b == bs[0] || b in bs[1..];
      if |bs[0]| > 0 then [bs[0]] + rest else rest
  }

  /** The filter keeps a single batch exactly when it is non-empty. */
  lemma DropEmptySingle(b: Batch)
    ensures DropEmpty([b]) == if |b| > 0 then [b] else []
  {
    assert [b][1..] == [];
  }

  /**
   * The filter distributes over concatenation, so together with `DropEmptySingle` it keeps the
   * non-empty batches in their original order.
   */
  lemma {:induction false} DropEmptyConcat(a: seq<Batch>, b: seq<Batch>)
    ensures DropEmpty(a + b) == DropEmpty(a) + DropEmpty(b)
    decreases |a|
  {
    if |a| == 0 {
      assert a + b == b;
    } else {
      DropEmptyConcat(a[1..], b);
      ConcatTail(a, b);
    }
  }

  /** When no batch is empty the filter returns the batches unchanged, in their order. */
  lemma {:induction false} DropEmptyKeepsNonEmpty(bs: seq<Batch>)
    requires AllNonEmpty(bs)
    ensures DropEmpty(bs) == bs
    decreases |bs|
  {
    if |bs| > 0 {
      assert AllNonEmpty(bs[1..]) by {
        forall i | 0 <= i < |bs[1..]| ensures |bs[1..][i]| > 0 {
          assert bs[1..][i] == bs[i + 1];
        }
      }
      DropEmptyKeepsNonEmpty(bs[1..]);
      HeadTail(bs);
    }
  }

  /** Every batch is empty or already has at least `minPerBatch` sentences. */
  predicate EmptyOrAtMinimum(batches: seq<Batch>, minPerBatch: int)
  {
    forall i :: 0 <= i < |batches| ==> |batches[i]| == 0 || |batches[i]| >= minPerBatch
  }

  /** When every batch is empty or at the minimum, the batches the filter keeps are at the minimum. */
  lemma DropEmptyMeetsMinimum(batches: seq<Batch>, minPerBatch: int)
    requires EmptyOrAtMinimum(batches, minPerBatch)
    ensures forall j :: 0 <= j < |DropEmpty(batches)| ==> |DropEmpty(batches)[j]| >= minPerBatch
  {
    var valid := DropEmpty(batches);
    forall j | 0 <= j < |valid| ensures |valid[j]| >= minPerBatch {
      assert valid[j] in valid;
      var i :| 0 <= i < |batches| && batches[i] == valid[j];
    }
  }

  /** The filter keeps nothing exactly when every batch is empty. */
  lemma DropEmptyIsEmpty(batches: seq<Batch>)
    ensures |DropEmpty(batches)| == 0 <==> forall i :: 0 <= i < |batches| ==> |batches[i]| == 0
  {
    var valid := DropEmpty(batches);
    if |valid| == 0 {
      forall i | 0 <= i < |batches| ensures |batches[i]| == 0 {
        assert batches[i] in batches;
      }
    } else {
      assert valid[0] in batches;
    }
  }

  /**
   * `enforceBatchSizeConstraints(batches, minSentencesPerBatch)`. When every batch is empty
   * the input comes back unchanged; otherwise the result consists of non-empty batches holding
   * exactly the input's sentences, and it is a single batch or all batches reach the minimum.
   */
  function EnforceBatchSizeConstraints(batches: seq<Batch>, minPerBatch: int): (r: seq<Batch>)
    ensures multiset(Flatten(r)) == multiset(Flatten(batches))
    ensures |r| <= |batches|
    ensures (forall i :: 0 <= i < |batches| ==> |batches[i]| == 0) ==> r == batches
    ensures (exists i :: 0 <= i < |batches| && |batches[i]| > 0) ==>
              && |r| > 0
              && AllNonEmpty(r)
              && (|r| == 1 || forall i :: 0 <= i < |r| ==> |r[i]| >= minPerBatch)
  {
    var valid := DropEmpty(batches);
    DropEmptyIsEmpty(batches);
    if |valid| == 0 then batches else MergeSmallBatches(valid, minPerBatch)
  }

  /**
   * No merge happens when the non-empty batches already meet the minimum, or when only one
   * batch is non-empty: the result is then exactly the non-empty batches, in their order.
   */
  lemma NoMergeNeeded(batches: seq<Batch>, minPerBatch: int)
    requires exists i :: 0 <= i < |batches| && |batches[i]| > 0
    ensures EmptyOrAtMinimum(batches, minPerBatch) ==> EnforceBatchSizeConstraints(batches, minPerBatch) == DropEmpty(batches)
    ensures |DropEmpty(batches)| == 1 ==> EnforceBatchSizeConstraints(batches, minPerBatch) == DropEmpty(batches)
  {
    DropEmptyIsEmpty(batches);
    if EmptyOrAtMinimum(batches, minPerBatch) {
      DropEmptyMeetsMinimum(batches, minPerBatch);
    }
  }

  /**
   * Past the filter, the repair is the greedy chain of merges on the non-empty batches, in
   * their order: a merge was due at every batch count above the result's, and none at the end.
   */
  lemma EnforceRunsMerges(batches: seq<Batch>, minPerBatch: int)
    requires exists i :: 0 <= i < |batches| && |batches[i]| > 0
    ensures var valid := DropEmpty(batches);
            var r := EnforceBatchSizeConstraints(batches, minPerBatch);
            && |r| <= |valid|
            && r == MergeDownTo(valid, |r|)
            && (forall n :: |r| < n <= |valid| ==> MergeDue(MergeDownTo(valid, n), minPerBatch))
            && !MergeDue(r, minPerBatch)
  {
    var valid := DropEmpty(batches);
    DropEmptyIsEmpty(batches);
    assert EnforceBatchSizeConstraints(batches, minPerBatch) == MergeSmallBatches(valid, minPerBatch);
    MergeRunsSteps(valid, minPerBatch);
  }

  /** Batches that are all non-empty and already at the minimum come back unchanged. */
  lemma FullBatchesUnchanged(batches: seq<Batch>, minPerBatch: int)
    requires |batches| > 0 && AllNonEmpty(batches)
    requires forall i :: 0 <= i < |batches| ==> |batches[i]| >= minPerBatch
    ensures EnforceBatchSizeConstraints(batches, minPerBatch) == batches
  {
    DropEmptyKeepsNonEmpty(batches);
    assert |batches[0]| > 0;
  }

  /** Two longest-first batches: two sentences of length 2, and one of length 3. */
  function Example(): seq<Batch>
  {
    [["aa", "bb"], ["ccc"]]
  }

  lemma ExampleKeepsBothBatches()
    ensures DropEmpty(Example()) == Example()
  {
    var v := Example();
    assert DropEmpty(v[1..][1..]) == [];
    assert DropEmpty(v[1..]) == [v[1]];
  }

  lemma ExampleScans()
    ensures Smallest(Example()) == 1
    ensures NextSmallest(Example(), 1) == 0
  {
    var v := Example();
    assert ScanSmallest(v, -1, 2, 1) == 1;
    assert ScanSmallest(v, -1, 1, 0) == 1;
    assert ScanSmallest(v, 1, 2, 0) == 0;
    assert ScanSmallest(v, 1, 1, 0) == 0;
  }

  lemma ExampleMerges()
    ensures MergeSmallBatches(Example(), 4) == [["aa", "bb", "ccc"]]
  {
    var v := Example();
    ExampleScans();
    var merged := Merge(v, 1, 0);
    assert v[0] + v[1] == ["aa", "bb", "ccc"];
    assert merged[0] == ["aa", "bb", "ccc"];
    assert merged == [["aa", "bb", "ccc"]];
    assert MergeSmallBatches(merged, 4) == merged;
  }

  /**
   * The repair does not keep batches longest-first: appending the smallest batch to the end
   * of the next-smallest can put a longer sentence after shorter ones.
   */
  lemma MergeCanBreakLongestFirst()
    ensures forall i :: 0 <= i < |Example()| ==> LongestFirst(Example()[i])
    ensures EnforceBatchSizeConstraints(Example(), 4) == [["aa", "bb", "ccc"]]
    ensures !LongestFirst(["aa", "bb", "ccc"])
  {
    ExampleLongestFirst();
    ExampleRepairs();
    ExampleLengths();
    var merged: Batch := ["aa", "bb", "ccc"];
    assert merged[1] == "bb" && merged[2] == "ccc";
  }

  /** The JavaScript lengths of the example's sentences. */
  lemma ExampleLengths()
    ensures JsLength("aa") == 2 && JsLength("bb") == 2 && JsLength("ccc") == 3
  {
  }

  lemma ExampleLongestFirst()
    ensures forall i :: 0 <= i < |Example()| ==> LongestFirst(Example()[i])
  {
    var v := Example();
    ExampleLengths();
    assert v[0][0] == "aa" && v[0][1] == "bb";
    assert |v[1]| == 1;
    forall i | 0 <= i < |v| ensures LongestFirst(v[i]) {
    }
  }

  lemma ExampleRepairs()
    ensures EnforceBatchSizeConstraints(Example(), 4) == [["aa", "bb", "ccc"]]
  {
    ExampleKeepsBothBatches();
    ExampleMerges();
  }

  /** One batch below the minimum 4 among two full ones. */
  function Uneven(): seq<Batch>
  {
    [["a"], ["b", "c", "d", "e"], ["f", "g", "h", "i"]]
  }

  /** `Uneven()` after its short batch is appended to the first full one. */
  function UnevenMerged(): seq<Batch>
  {
    [["b", "c", "d", "e"] + ["a"], ["f", "g", "h", "i"]]
  }

  /** Of three batches, a strictly shortest first one is appended to the second when that is no longer than the third. */
  lemma MergeFirstOfThree(x: Batch, y: Batch, z: Batch)
    requires |x| < |y| <= |z|
    ensures MergeStep([x, y, z]) == [y + x, z]
  {
    var v := [x, y, z];
    assert ScanSmallest(v, -1, 2, 0) == 0;
    assert ScanSmallest(v, -1, 1, 0) == 0;
    assert ScanSmallest(v, 0, 2, 1) == 1;
    assert ScanSmallest(v, 0, 1, -1) == 1;
    var merged := Merge(v, 0, 1);
    assert merged[0] == y + x && merged[1] == z;
  }

  lemma UnevenStep()
    ensures MergeStep(Uneven()) == UnevenMerged()
  {
    MergeFirstOfThree(["a"], ["b", "c", "d", "e"], ["f", "g", "h", "i"]);
  }

  lemma UnevenMergedStops()
    ensures !MergeDue(UnevenMerged(), 4)
  {
    var v := UnevenMerged();
    assert ScanSmallest(v, -1, 1, 0) == 1;
  }

  /**
   * The loop merges only while a merge is due: the short batch of `Uneven()` is appended to
   * the first full batch, and the two batches left both meet the minimum 4.
   */
  lemma OneMergeKeepsTwoBatches()
    ensures MergeSmallBatches(Uneven(), 4) == UnevenMerged()
  {
    UnevenStep();
    UnevenMergedStops();
  }

  /** The whole repair on `Uneven()`: no batch is empty, so the result is the one merge above. */
  lemma UnevenRepairs()
    ensures EnforceBatchSizeConstraints(Uneven(), 4) == UnevenMerged()
  {
    var v := Uneven();
    assert AllNonEmpty(v) by {
      assert |v[0]| == 1 && |v[1]| == 4 && |v[2]| == 4;
    }
    DropEmptyKeepsNonEmpty(v);
    OneMergeKeepsTwoBatches();
  }
}

=== FILE: seqs.dfy ===
/** Sequence helpers shared by the clustering, repair and analysis modules. */
module Seqs {

  /** Concatenation of a sequence of sequences, first to last. */
  function Flatten<T>(bs: seq<seq<T>>): seq<T>
  {
    if |bs| == 0 then [] else bs[0] + Flatten(bs[1..])
  }

  /** Dropping the head of a concatenation drops the head of its first part. */
  lemma ConcatTail<T>(a: seq<T>, b: seq<T>)
    requires |a| > 0
    ensures (a + b)[0] == a[0]
    ensures (a + b)[1..] == a[1..] + b
  {
  }

  /** A non-empty sequence is its head followed by its tail. */
  lemma HeadTail<T>(s: seq<T>)
    requires |s| > 0
    ensures [s[0]] + s[1..] == s
  {
  }

  /** The sequence with position `i` left out (JavaScript `splice(i, 1)`). */
  function RemoveAt<T>(s: seq<T>, i: nat): (r: seq<T>)
    requires i < |s|
    ensures |r| == |s| - 1
    ensures forall j :: 0 <= j < i ==> r[j] == s[j]
    ensures forall j :: i <= j < |r| ==> r[j] == s[j + 1]
  {
    s[..i] + s[i + 1..]
  }

  /** The indices 0, 1, ..., n-1 in ascending order. */
  function Range(n: nat): (r: seq<nat>)
    ensures |r| == n
    ensures forall i :: 0 <= i < n ==> r[i] == i
  {
    seq(n, i requires 0 <= i => i)
  }

  lemma {:induction false} FlattenConcat<T>(a: seq<seq<T>>, b: seq<seq<T>>)
    ensures Flatten(a + b) == Flatten(a) + Flatten(b)
    decreases |a|
  {
    if |a| == 0 {
      assert a + b == b;
    } else {
      assert (a + b)[1..] == a[1..] + b;
      FlattenConcat(a[1..], b);
    }
  }

  /** Appending `y` to the batch at position `c` adds exactly `y` to the flattened contents. */
  lemma {:induction false} FlattenAppendAt<T>(bs: seq<seq<T>>, c: nat, y: seq<T>)
    requires c < |bs|
    ensures multiset(Flatten(bs[c := bs[c] + y])) == multiset(Flatten(bs)) + multiset(y)
    decreases |bs|
  {
    var bs' := bs[c := bs[c] + y];
    if c == 0 {
      assert bs'[1..] == bs[1..];
    } else {
      assert bs'[1..] == bs[1..][c - 1 := bs[1..][c - 1] + y];
      FlattenAppendAt(bs[1..], c - 1, y);
    }
  }

  /** Removing the batch at position `i` removes exactly its elements from the flattened contents. */
  lemma FlattenRemoveAt<T>(bs: seq<seq<T>>, i: nat)
    requires i < |bs|
    ensures multiset(Flatten(RemoveAt(bs, i))) + multiset(bs[i]) == multiset(Flatten(bs))
  {
    var pre, post := bs[..i], bs[i + 1..];
    assert bs == pre + ([bs[i]] + post);
    FlattenConcat(pre, [bs[i]] + post);
    assert ([bs[i]] + post)[1..] == post;
    assert Flatten([bs[i]] + post) == bs[i] + Flatten(post);
    assert RemoveAt(bs, i) == pre + post;
    FlattenConcat(pre, post);
  }

  /** The largest element, like JavaScript `Math.max(...s)` on a non-empty array. */
  function Max(s: seq<int>): (m: int)
    requires |s| > 0
    ensures m in s
    ensures forall i :: 0 <= i < |s| ==> s[i] <= m
  {
    if |s| == 1 then s[0]
    else
      var rest := Max(s[1..]);
      if s[0] >= rest then s[0] else rest
  }

  /** The smallest element, like JavaScript `Math.min(...s)` on a non-empty array. */
  function Min(s: seq<int>): (m: int)
    requires |s| > 0
    ensures m in s
    ensures forall i :: 0 <= i < |s| ==> m <= s[i]
  {
    if |s| == 1 then s[0]
    else
      var rest := Min(s[1..]);
      if s[0] <= rest then s[0] else rest
  }

  /** The sum of the elements; a sum of non-negative values is non-negative. */
  function Sum(s: seq<int>): (r: int)
    ensures (forall i :: 0 <= i < |s| ==> s[i] >= 0) ==> r >= 0
  {
    if |s| == 0 then 0 else s[0] + Sum(s[1..])
  }

  /**
   * Adding one more element at the back adds it to the sum, so `Sum` agrees with the
   * left-to-right `reduce((sum, x) => sum + x, 0)`.
   */
  lemma {:induction false} SumAppend(s: seq<int>, x: int)
    ensures Sum(s + [x]) == Sum(s) + x
    decreases |s|
  {
    if |s| == 0 {
      assert s + [x] == [x];
    } else {
      SumAppend(s[1..], x);
      assert (s + [x])[1..] == s[1..] + [x];
    }
  }

  /** A sum of values in `[lo, hi]` lies between `|s| * lo` and `|s| * hi`. */
  lemma {:induction false} SumBounds(s: seq<int>, lo: int, hi: int)
    requires forall i :: 0 <= i < |s| ==> lo <= s[i] <= hi
    ensures |s| * lo <= Sum(s) <= |s| * hi
    decreases |s|
  {
    if |s| > 0 {
      SumBounds(s[1..], lo, hi);
      MulSucc(|s| - 1, lo);
      MulSucc(|s| - 1, hi);
    }
  }

  lemma MulSucc(n: int, x: int)
    ensures (n + 1) * x == x + n * x
  {
  }
}

=== FILE: sorting.dfy ===
/** A stable insertion sort by an integer key, standing in for `Array.prototype.sort`. */
module Sorting {

  /** Keys never decrease from left to right. */
  predicate SortedBy<T>(s: seq<T>, key: T -> int)
  {
    forall i, j :: 0 <= i < j < |s| ==> key(s[i]) <= key(s[j])
  }

  /** Putting an element no larger than the first in front of a sorted sequence keeps it sorted. */
  lemma SortedCons<T>(h: T, t: seq<T>, key: T -> int)
    requires SortedBy(t, key)
    requires |t| > 0 ==> key(h) <= key(t[0])
    ensures SortedBy([h] + t, key)
  {
    var r := [h] + t;
    forall i, j | 0 <= i < j < |r| ensures key(r[i]) <= key(r[j]) {
      assert r[j] == t[j - 1];
      if i > 0 {
        assert r[i] == t[i - 1];
      }
    }
  }

  /** Inserts `x` before the first element whose key is not smaller. */
  function Insert<T>(x: T, s: seq<T>, key: T -> int): (r: seq<T>)
    requires SortedBy(s, key)
    ensures SortedBy(r, key)
    ensures multiset(r) == multiset(s) + multiset{x}
    ensures |r| == |s| + 1
    ensures r[0] == x || (|s| > 0 && r[0] == s[0])
    decreases |s|
  {
    if |s| == 0 then [x]
    else if key(x) <= key(s[0]) then
      SortedCons(x, s, key);
      [x] + s
    else
      var rest := Insert(x, s[1..], key);
      assert key(s[0]) <= key(rest[0]);
      SortedCons(s[0], rest, key);
      assert s == [s[0]] + s[1..];
      [s[0]] + rest
  }

  /** Sorts `s` by ascending key; elements with equal keys keep their input order. */
  function SortBy<T>(s: seq<T>, key: T -> int): (r: seq<T>)
    ensures SortedBy(r, key)
    ensures multiset(r) == multiset(s)
    ensures |r| == |s|
    decreases |s|
  {
    if |s| == 0 then []
    else
      assert s == [s[0]] + s[1..];
      Insert(s[0], SortBy(s[1..], key), key)
  }
}

=== FILE: text.dfy ===
/**
 * JavaScript string length. A Dafny `string` is a sequence of Unicode scalar values, while
 * JavaScript's `s.length` counts UTF-16 code units: a character beyond U+FFFF is stored as a
 * surrogate pair and counts twice.
 */
module Text {

  /** The largest code point that fits in one UTF-16 code unit. */
  const MaxSingleUnit: int := 0xFFFF

  /** The UTF-16 code units a character occupies: two for a surrogate pair, otherwise one. */
  function CodeUnits(c: char): (u: nat)
    ensures u == 1 || u == 2
    ensures u == 2 <==> c as int > MaxSingleUnit
  {
    if c as int > MaxSingleUnit then 2 else 1
  }

  /** `s.length`: the number of UTF-16 code units of `s`. */
  function JsLength(s: string): (n: nat)
    ensures |s| <= n <= 2 * |s|
    ensures n == |s| <==> forall i :: 0 <= i < |s| ==> s[i] as int <= MaxSingleUnit
    ensures n == 2 * |s| <==> forall i :: 0 <= i < |s| ==> s[i] as int > MaxSingleUnit
  {
    if |s| == 0 then 0
    else
      var rest := s[1..];
      assert forall i :: 0 <= i < |rest| ==> rest[i] == s[i + 1];
      CodeUnits(s[0]) + JsLength(rest)
  }

  /** The length of a concatenation is the sum of the lengths. */
  lemma {:induction false} JsLengthConcat(a: string, b: string)
    ensures JsLength(a + b) == JsLength(a) + JsLength(b)
    decreases |a|
  {
    if |a| > 0 {
      JsLengthConcat(a[1..], b);
      assert (a + b)[0] == a[0];
      assert (a + b)[1..] == a[1..] + b;
    } else {
      assert a + b == b;
    }
  }

  /**
   * An emoji beyond U+FFFF is one Dafny character but two JavaScript code units, so the two
   * lengths differ exactly on such characters.
   */
  lemma AstralCharacterCountsTwice()
    ensures |"\U{1F600}"| == 1
    ensures JsLength("\U{1F600}") == 2
    ensures JsLength("a\U{1F600}b") == 4
  {
    assert "a\U{1F600}b" == "a" + ("\U{1F600}" + "b");
    JsLengthConcat("a", "\U{1F600}" + "b");
    JsLengthConcat("\U{1F600}", "b");
  }
}

=== FILE: wrappers.dfy ===
/** Failure-carrying datatypes used across the model. */
module Wrappers {

  /** An optional value: an option the caller may leave out. */
  datatype Option<+T> = None | Some(value: T)

  /** Either a computed value or the error that stopped the computation. */
  datatype Result<+R, +E> = Success(value: R) | Failure(error: E)
}
